=== FILE: README.md ===
# Repair-It: a Dafny model of the order and session logic

Repair-It is an appliance-repair shop. It has two parts:

- **Backend (Django REST).** Customers file repair orders made of items. Each item has an appliance, a quantity, a price and images. Staff price the orders, complete them or reject them.
- **Frontend (React).** A single-page client keeps a JWT session in the browser and talks to the backend through an authenticated HTTP client.

This project models the sequential logic inside that system:

- **HTTP client** (`Api`). It attaches the bearer token (section 2.1 of RFC 6750). It answers a 401 by refreshing the token once and retrying once; otherwise it ends the session.
- **Session store** (`Auth`). It covers `login`, `logout`, the derived `isAuthenticated` and `role`, and the rehydration decision tree that runs on page load.
- **Order records** (`OrderModels`). Their pricing rules: an item's total is its quantity times its price, and the order total is the sum of its item totals.
- **Order endpoints** (`OrderViews`). Per-user visibility, creation, update, deletion, `cancel` and the staff `reports`.
- **User serializers** (`UserSerializers`).
- **Client pages and components**:
  - the staff order page (`StaffOrders`);
  - order creation and order editing (`CreateOrder`, `UpdateOrder`);
  - the dashboard and the report page (`Dashboard`, `Report`);
  - the customer order list (`OrdersPage`);
  - registration (`Register`);
  - the navigation bar (`Navbar`);
  - the video rotation (`VideoPlayer`).

How the model represents the real system:

- **External services are parameters.** The backend, the refresh endpoint, the profile fetches, authentication, password validators and number parsing are oracle functions or given results. Every effect the code performs becomes an explicit result: storage writes, redirects, requests sent, callbacks run.
- **Browser storage** is a map from keys to entries (`Storage`).
- **JavaScript values** are a datatype with `undefined`, `null`, booleans, integers, strings and opaque references (`Json`). The model includes JavaScript's truthiness, `||` and object spread.
- **Money** is integer paisa.
- **Months** are given as (year, month) pairs.
- **Statuses are read as strings.** The backend's `Order.Status.X` is read as the string `"X"`, except in `OrderViews.CancelAsWritten`, which models the lookup as it fails (see Findings).
- **`"PENDING"`** is used by the dashboard, the staff page and `reports`. It is kept as written, although it is not one of the model's status choices.

Shared helpers live in these modules:

- `Basics`: `Option`, `Result`, `Min`.
- `Seqs`: filter, sum, count, and a descending sort.
- `Text`: JavaScript `split`, `join` and `trim`, and decimal formatting.
- `OrderRows`: the order rows the client pages receive.

## Model

| member | source | states |
|---|---|---|
| Api.Attach | frontend/src/api/api.js:8-17 | With a stored access token, the request gains `Authorization: Bearer <token>`. Without one, the request is unchanged. |
| Api.Settle | frontend/src/api/api.js:20-21 | Only a 2xx response resolves, and it resolves unchanged. Any other answer, or none, rejects with that response and the request as sent. |
| Api.Send | frontend/src/api/api.js:20-60 | One logical request makes at most two dispatches and at most one refresh. A request already marked as retried is dispatched exactly once and touches nothing. Storage ends unchanged, cleared of the session keys, or with only the access token replaced. |
| Api.CountsConcat | frontend/src/api/api.js:25-40 | The dispatch and refresh counts of a concatenated call trace add up. |
| ApiProperties.BearerFollowsStorage | frontend/src/api/api.js:9-15 | The outgoing request carries `Bearer <stored token>`. Every other header, the URL and the retry mark are preserved. With no token, the headers are untouched. |
| ApiProperties.SuccessPassesThrough | frontend/src/api/api.js:21 | A 2xx response reaches the caller unchanged, after one dispatch, with storage untouched and no redirect. |
| ApiProperties.BusinessErrorPassesThrough | frontend/src/api/api.js:25-58 | Any failure other than a 401 is rejected as that same error. There is no refresh, no storage change and no redirect. |
| ApiProperties.RetriedUnauthorizedIsTerminal | frontend/src/api/api.js:25-58 | A 401 on a request already marked as retried is rejected as that 401. Zero refreshes are made. |
| ApiProperties.RefreshThenRetry | frontend/src/api/api.js:25-40 | After a successful refresh, only the access token in storage changes. The request is re-sent once, marked as retried and carrying the new bearer, and the caller gets that dispatch's outcome. There are exactly two dispatches and one refresh. |
| ApiProperties.RefreshFailureLogsOut | frontend/src/api/api.js:41-47 | A refused refresh clears the three session keys and redirects to `/login`. The caller sees the refresh error, not the 401. |
| ApiProperties.NoRefreshTokenLogsOut | frontend/src/api/api.js:49-58 | With no refresh token, a first 401 clears the session keys, redirects to `/login`, and rejects with the original 401. |
| ApiProperties.RefreshCallIsNotIntercepted | frontend/src/api/api.js:31-40 | In every run, a refresh call is the second call and carries the stored refresh token. Every other call is a dispatch, so the refresh is never itself retried or refreshed. |
| Auth.Role | frontend/src/contexts/AuthContext.jsx:87 | `role` is `null` without a user, the user's role when it is truthy, and otherwise `null`. |
| Auth.IsAuthenticated | frontend/src/contexts/AuthContext.jsx:91 | `isAuthenticated` is `!!accessToken`: a token is present and is not the empty string. |
| Auth.WithDefaultRole | frontend/src/contexts/AuthContext.jsx:66 | The in-memory user has every profile field and a `role`. The role is the profile's when that is truthy and "customer" otherwise, so it is always truthy. |
| Auth.Login | frontend/src/contexts/AuthContext.jsx:65-72 | A missing profile throws before any change. Otherwise the in-memory user keeps every profile field with `role` defaulted to "customer", the token is the given one, and loading and redirect are untouched. |
| Auth.Logout | frontend/src/contexts/AuthContext.jsx:74-81 | User and token become null, so the session is not authenticated. Exactly the three session keys leave storage, every other entry is kept, and the page goes to `/login`. |
| Auth.Restore | frontend/src/contexts/AuthContext.jsx:18-21 | The token is restored exactly when both a saved access token and a saved user exist. The user is restored exactly when, in addition, the saved user parses. A saved user that is text other than JSON makes the parse throw. |
| Auth.Chain | frontend/src/contexts/AuthContext.jsx:13-63 | On every branch the page goes to `/login` exactly when the chain logs out, and a logout leaves no user, no token, loading over and no session keys. A token kept in memory is the one storage holds, and entries other than the session keys are never touched. |
| Auth.Rehydrate | frontend/src/contexts/AuthContext.jsx:25-31 | As written, a successful first profile fetch loads the fetched user with the role defaulted, and keeps the token exactly as restoring left it. Storage gains the profile as it came, without the default, and nothing else. The chain makes one fetch, ends loading, and does not redirect. |
| Auth.RehydrateFixed | frontend/src/contexts/AuthContext.jsx:25-31 | With the correction, a successful first profile fetch loads the fetched user together with the saved access token. Storage, the calls and the redirect are as in the written chain. |
| AuthProperties.LoginWrites | frontend/src/contexts/AuthContext.jsx:67-71 | `login` writes the access token always and the refresh token only when one is given; otherwise the stored refresh token stays. It writes the raw profile without the defaulted role. No other key changes. |
| AuthProperties.LoginAuthenticates | frontend/src/contexts/AuthContext.jsx:65-91 | After `login`, the session is authenticated iff the token is non-empty. The role is the profile's truthy role, or "customer". Every other profile field is kept. |
| AuthProperties.LogoutIdempotent | frontend/src/contexts/AuthContext.jsx:74-81 | Logging out twice ends in the same state as logging out once. |
| AuthProperties.RehydrateWithoutToken | frontend/src/contexts/AuthContext.jsx:23-62 | With no saved access token, nothing is fetched or written and loading ends at once. |
| AuthProperties.RehydrateLoadingEndsLast | frontend/src/contexts/AuthContext.jsx:59-94 | `loading` goes false exactly once, as the last step of the chain, and children render only then. If parsing the saved user throws, loading never ends. |
| AuthProperties.RehydrateFailureLogsOut | frontend/src/contexts/AuthContext.jsx:33-58 | A failed first profile fetch ends in logout in three cases: there is no refresh token, the refresh is refused, or the retried fetch fails. Logout clears the session keys and redirects to `/login`. |
| AuthProperties.RehydrateRefreshThenRetry | frontend/src/contexts/AuthContext.jsx:36-50 | After a failed first fetch, a successful refresh and a successful retry, the new token is stored and held in memory. The fetched profile is stored and loaded as it came, with no role default. No other key changes, nobody is logged out, and loading ends last. |
| AuthProperties.RehydrateCallsNeedTokens | frontend/src/contexts/AuthContext.jsx:23-39 | A profile fetch happens only with a saved access token. A refresh happens only after a failed first fetch, and only with the saved refresh token. |
| AuthProperties.RehydrateCanLeaveUserWithoutToken | frontend/src/contexts/AuthContext.jsx:18-32 | A saved token without a saved user, followed by a successful fetch, ends with a loaded user and no token in memory. |
| AuthProperties.RehydrateFixedConsistent | frontend/src/contexts/AuthContext.jsx:13-63 | When the first fetch adopts the saved token, every finished rehydration has a user iff it has a token. |
| AuthProperties.RehydrateFixedAgrees | frontend/src/contexts/AuthContext.jsx:13-63 | The corrected rehydration equals the written one whenever a user was saved or the first fetch failed. |
| Storage.ClearSession | frontend/src/contexts/AuthContext.jsx:77-79 | Exactly the three session keys are removed and every other entry is kept. Afterwards no token and no user can be read. |
| Storage.ClearSessionIdempotent | frontend/src/api/api.js:43-45 | Clearing an already cleared store changes nothing. |
| Json.Spread | frontend/src/pages/StaffOrderPage.jsx:41 | In `{...a, ...b}`, every property of `b` overrides the one in `a`, and the keys are the union. |
| OrderModels.NewOrder | backend/orders/models.py:18-23 | A new order is ON_GOING with total 0 and no items. It is well formed and priced. |
| OrderModels.NewItem | backend/orders/models.py:51-53 | A new item has quantity 1, price 0 and empty details, so its total is 0. |
| OrderModels.ItemTotal | backend/orders/models.py:59-60 | The line total is quantity × price: 0 exactly when one of them is 0, of the price's sign, and for one or more pieces at least the unit price. |
| OrderModels.UpdateTotalPrice | backend/orders/models.py:27-30 | The order total becomes the sum of quantity × price over its items, which is 0 without items. No other field changes. |
| OrderModels.DeleteItem | backend/orders/models.py:59-65 | Removing an item leaves the others in order and re-prices the order. For a priced order, the total drops by that item's quantity × price. |
| OrderModels.ItemsTotalNonNegative | backend/orders/models.py:52-60 | Non-negative prices give a non-negative order total. |
| OrderViews.Queryset | backend/orders/views.py:10-18 | The list is sorted newest first. A non-staff user sees exactly the orders they own; staff see every order. |
| OrderViews.GetObject | backend/orders/views.py:14-18 | The lookup finds the order with that id among those the user may see, or answers 404 exactly when none is visible. |
| OrderViews.PerformCreate | backend/orders/views.py:25-26 | A valid create is owned by the requester whatever customer was sent, starts with total 0 and no items, and is well formed. An invalid status answers 400. |
| OrderViews.PerformUpdate | backend/orders/views.py:28-30 | After an update, the total equals the sum of the items, so a client total is never kept. Items, owner, id and creation time stay. An invalid status answers 400. |
| OrderViews.Destroy | backend/orders/views.py:32-38 | As the framework runs it, a delete answers 404 or 204 and never 400. An order the user cannot see gets 404 and nothing is deleted. A visible order gets 204 whatever its status. |
| OrderViews.DestroyFixed | backend/orders/views.py:32-38 | A closed order is kept, and the client gets 400. Any other visible order is removed, with 204. An invisible one gets 404. |
| OrderViews.CancelOrder | backend/orders/views.py:45-52 | A non-owner who is not staff gets 403 and the order is unchanged. Otherwise the answer is 200: an open order becomes REJECTED and, being saved, gets `now` as its update time. A COMPLETED or REJECTED order is not saved and is left as it is. |
| OrderViews.Cancel | backend/orders/views.py:40-52 | The answer is 200 exactly when the lookup finds the order, and the stored order of that id is then what the body makes of it. Otherwise the answer is 404 and the table is unchanged. |
| OrderViews.Replace | backend/orders/views.py:49-50 | Saving keeps the table's length and replaces exactly the rows with the saved order's id. |
| OrderViews.Remove | backend/orders/views.py:38 | `instance.delete()` keeps exactly the orders with another id. |
| OrderViews.CancelAsWritten | backend/orders/views.py:40-52 | As written, the lookup of `Order.Status` fails once the ownership check passes. The answer is 500 and the table is unchanged. |
| OrderViews.Reports | backend/orders/views.py:54-71 | Non-staff get 403. For staff, the total is the number of orders. The completed, rejected and pending counts are the numbers of orders in those statuses, and together they are at most the total. The revenue is the sum of the totals of the COMPLETED orders. |
| OrderViewsProperties.CancelNeverForbidden | backend/orders/views.py:40-46 | `cancel` never answers 403, because the lookup already hides other users' orders (404). A 404 leaves the table as it was. |
| OrderViewsProperties.CancelIdempotent | backend/orders/views.py:48-52 | Cancelling twice equals cancelling once. |
| OrderViewsProperties.CancelTouchesOnlyTarget | backend/orders/views.py:40-52 | A cancel keeps the table's length. Only the named order can change, and only by becoming REJECTED. |
| OrderViewsProperties.ReplaceTouchesOnlyTarget | backend/orders/views.py:50-52 | Saving one order, with ids unique, changes only the row with that id, and only by rejecting it. |
| OrderViewsProperties.ClosedOrdersSurvive | backend/orders/views.py:32-35 | A COMPLETED or REJECTED order is never deleted, by either version of destroy. |
| OrderViewsProperties.DestroyClosedAnswersNoContent | backend/orders/views.py:32-38 | As written, deleting one's own completed order answers 204 while the order stays. |
| OrderViewsProperties.CancelAsWrittenFails | backend/orders/views.py:40-52 | As written, an owner cancelling an ON_GOING order gets 500 with nothing saved. As intended, the same call answers 200 and rejects the order. |
| OrderViewsProperties.OpenOrdersAreDeleted | backend/orders/views.py:36-38 | A visible order in any other status is deleted, and only that order. |
| OrderViewsProperties.ReportsPendingZero | backend/orders/views.py:59 | Over orders whose status is one of the choices, the pending count is always 0. |
| UserSerializers.Represent | backend/users/serializers.py:7-10 | The user representation has exactly id, username, email, phone, address and is_staff, and never the password. |
| UserSerializers.RepresentRegistered | backend/users/serializers.py:13-18 | The registration response has username, email, phone and address. The password is write-only. |
| UserSerializers.Create | backend/users/serializers.py:20-28 | A new user gets the given username, email and password. An absent phone or address becomes "". The user is active and not staff. |
| UserSerializers.ValidateLogin | backend/users/serializers.py:35-39 | Login yields the user iff authentication succeeds and the account is active. Otherwise it fails with "Invalid credentials". |
| UserSerializers.ValidateReset | backend/users/serializers.py:55-59 | A mismatch is refused as a mismatch. A matching pair is accepted iff the strength validators accept it, and refused with their reasons otherwise. |
| UserSerializers.MismatchBeforeStrength | backend/users/serializers.py:55-58 | A mismatch is refused whatever the validators would say. |
| Text.JoinSplit | frontend/src/pages/Orders.jsx:33-34 | Joining the pieces of a split with the separator gives the string back. |
| Text.SplitJoin | frontend/src/pages/Orders.jsx:33-34 | Splitting a join of separator-free pieces gives the pieces back. |
| Text.Split | frontend/src/pages/Orders.jsx:33 | `split` always gives at least one piece. |
| Text.SplitCount | frontend/src/pages/Orders.jsx:33 | A split has exactly one more piece than the text has separators. |
| Text.SplitPiecesFree | frontend/src/pages/Orders.jsx:33 | No piece of a split contains the separator. |
| Text.Join | frontend/src/pages/Orders.jsx:34 | Joining no pieces gives "". Otherwise the join starts with the first piece. |
| Text.JoinEndsWithLast | frontend/src/pages/Orders.jsx:34 | A join of two or more pieces ends with a separator followed by the last piece. |
| Text.Strip | frontend/src/pages/Register.jsx:46-47 | Stripping, which `trim` does with the white-space set, gives a slice of the text that neither starts nor ends with a dropped character, and everything before that slice is dropped. |
| Text.StripDropsTrailing | frontend/src/pages/Register.jsx:46-47 | Everything stripping drops after the slice is a dropped character too. |
| Text.StripEmpty | frontend/src/pages/Register.jsx:46-47 | Stripping gives "" iff every character of the text would be dropped. |
| Text.TrimEmpty | frontend/src/pages/Register.jsx:46-47 | `trim` gives "" iff the text is all white space. |
| Text.Trim | frontend/src/pages/Register.jsx:46-47 | `trim` is no longer than its input and neither starts nor ends with white space. |
| Text.NatToStringRoundTrip | frontend/src/components/orders/CreateOrder.jsx:45-49 | The decimal index in a multipart key reads back as the index. |
| Text.NatToStringInjective | frontend/src/components/orders/CreateOrder.jsx:45-49 | Different items get different key indices. |
| OrderRows.Coerce | frontend/src/pages/Report.jsx:12-15 | An array response is kept as is. A non-array or a thrown request gives []. |
| OrderRows.Completed | frontend/src/pages/Dashboard.jsx:46 | The completed orders are exactly the rows with status COMPLETED. |
| OrderRows.CompletedConcat | frontend/src/pages/Dashboard.jsx:46 | The completed rows of a concatenation are the completed rows of each part, in order. |
| OrderRows.SalesOfCompleted | frontend/src/pages/Dashboard.jsx:47-50 | `totalSales` is the sum of the amounts of the COMPLETED rows, with a missing price counted as 0. |
| Report.Load | frontend/src/pages/Report.jsx:8-21 | Loading ends false. The rows are the array answer, or [] otherwise. |
| Report.Summarize | frontend/src/pages/Report.jsx:23-67 | The table holds exactly the COMPLETED rows. `totalOrders` is their count, and `totalSales` is the sum of their amounts. |
| Report.TableKeepsOrder | frontend/src/pages/Report.jsx:23-28 | The table keeps the original order, and sales add over concatenation. |
| Report.FailedLoadIsEmpty | frontend/src/pages/Report.jsx:12-18 | A failed or non-array load reports no rows, a count of 0 and sales of 0. |
| Dashboard.Load | frontend/src/pages/Dashboard.jsx:24-44 | Any failed fetch empties all three lists, and a non-array answer gives []. Loading ends false either way. |
| Dashboard.AverageOf | frontend/src/pages/Dashboard.jsx:51-53 | The average is the literal 0 iff there are no completed orders. Otherwise it is the completed sales over the completed count. |
| Dashboard.AddTo | frontend/src/pages/Dashboard.jsx:60-61 | Adding an order to the buckets keeps months distinct. The order's amount goes to its month's bucket, and a bucket is created for a new month. |
| Dashboard.SalesByMonth | frontend/src/pages/Dashboard.jsx:56-64 | The buckets have distinct months, exactly the rows' months. Each bucket's total is the sum over the rows of that month. |
| Dashboard.BucketsSumToSales | frontend/src/pages/Dashboard.jsx:56-64 | The bucket totals sum to the sales of the rows. |
| Dashboard.EveryCompletedHasOneBucket | frontend/src/pages/Dashboard.jsx:56-64 | Every completed order has a bucket for its month, and only one. |
| Dashboard.EveryBucketFromCompleted | frontend/src/pages/Dashboard.jsx:56-64 | Every bucket belongs to some completed order's month. |
| Dashboard.MonthlyAddsUpToTotal | frontend/src/pages/Dashboard.jsx:47-64 | The monthly chart adds up to the total-sales card. |
| Dashboard.StatusData | frontend/src/pages/Dashboard.jsx:77-82 | The Completed slice equals the number of completed orders, each slice counts its status, and the four slices sum to at most the number of orders. |
| Dashboard.PendingSliceEmpty | frontend/src/pages/Dashboard.jsx:78 | On orders whose status is one of the model's choices, the Pending slice is 0. |
| Dashboard.Tally | frontend/src/pages/Dashboard.jsx:86-90 | One entry per customer, in order. Each entry has the username (or the email) and the number of orders whose `customer.id` is that customer's id. |
| Dashboard.TopCustomers | frontend/src/pages/Dashboard.jsx:86-92 | The list has min(5, customers) entries, sorted by non-increasing order count. Each entry is some customer's tally, and no tally appears more often than in the full per-customer list. |
| Dashboard.TopCustomersDominate | frontend/src/pages/Dashboard.jsx:86-92 | A customer left off the list has no more orders than anyone on it. |
| Dashboard.BareKeysCountNothing | frontend/src/pages/Dashboard.jsx:88 | When orders carry the customer as a bare key, every top-customer count is 0. |
| Dashboard.Recent | frontend/src/pages/Dashboard.jsx:208 | The recent table is the first min(10, n) orders. |
| OrdersPage.FetchOrders | frontend/src/pages/Orders.jsx:9-18 | Loading ends false. The list becomes the answer, or stays as it was when the request threw. |
| OrdersPage.HandleCancel | frontend/src/pages/Orders.jsx:24-31 | A successful cancel is followed by exactly one refetch. A failed one sends only the cancel and changes nothing. |
| OrdersPage.Truncate | frontend/src/pages/Orders.jsx:33-34 | Up to 15 words, the description is unchanged. Beyond that, the result ends in "..." after a prefix of the description that is followed there by a space. |
| OrdersPage.TruncateKeepsFirstWords | frontend/src/pages/Orders.jsx:33-34 | Past the limit, the text before "..." splits into exactly the first 15 words. |
| OrdersPage.Price | frontend/src/pages/Orders.jsx:74 | The price is shown iff the total is present and greater than 0, and then it shows that total. |
| OrdersPage.CancelOffered | frontend/src/pages/Orders.jsx:77 | The Cancel button is rendered exactly for an ON_GOING order. |
| OrdersPage.OfferedCancelIsAccepted | frontend/src/pages/Orders.jsx:77-84 | Cancel is offered for ON_GOING orders, and for an order the user may see the backend (string reading) accepts it and moves it out of ON_GOING. |
| StaffOrders.InitialPrices | frontend/src/pages/StaffOrderPage.jsx:14-18 | Every fetched id has an input and every input belongs to a fetched id. The last order with a given id sets its input to `total_price`, or "" when that is falsy. |
| StaffOrders.PricesStep | frontend/src/pages/StaffOrderPage.jsx:15-17 | One more assignment of the loop keeps those facts. |
| StaffOrders.FetchOrders | frontend/src/pages/StaffOrderPage.jsx:9-22 | A thrown request changes nothing. An answer replaces the orders and rebuilds the inputs from it. |
| StaffOrders.Merge | frontend/src/pages/StaffOrderPage.jsx:39-43 | Length and order are kept. Orders with the id get the response spread over them, and every other order is identical. |
| StaffOrders.MergeIdempotent | frontend/src/pages/StaffOrderPage.jsx:39-43 | Merging the same response twice equals merging it once. |
| StaffOrders.HandleUpdate | frontend/src/pages/StaffOrderPage.jsx:28-51 | A failed PATCH changes nothing. A success merges the response and replaces the id's input iff the response's `total_price` is not `undefined`. |
| StaffOrders.HandlePriceChange | frontend/src/pages/StaffOrderPage.jsx:53-55 | Only the entry of the given id changes. |
| StaffOrders.ToNumber | frontend/src/pages/StaffOrderPage.jsx:58 | `Number` gives 0 for null and for blank text, NaN for `undefined` and for any opaque reference, and otherwise the parse of the trimmed text. |
| StaffOrders.SetPrice | frontend/src/pages/StaffOrderPage.jsx:57-61 | Nothing is sent iff the input is not a number. Otherwise the body is exactly `{total_price: Number(input)}`. |
| StaffOrders.BlankInputSendsZero | frontend/src/pages/StaffOrderPage.jsx:16-61 | An order fetched without a price gets an empty input, and setting that input sends a price of 0. |
| StaffOrders.Visible | frontend/src/pages/StaffOrderPage.jsx:63-65 | "ALL" keeps every order. Any other filter keeps exactly the orders with that status. |
| StaffOrders.VisibleKeepsOrder | frontend/src/pages/StaffOrderPage.jsx:63-65 | The filter keeps the original order: it distributes over concatenation. |
| StaffOrders.ActionBody | frontend/src/pages/StaffOrderPage.jsx:158-173 | Reject sends only `status: "REJECTED"` and Complete only `status: "COMPLETED"`. Both are valid choices. |
| StaffOrders.NoActionsForStoredOrders | frontend/src/pages/StaffOrderPage.jsx:158 | The buttons appear only for PENDING, so no order with a valid status shows them. |
| StaffOrders.ActionsOffered | frontend/src/pages/StaffOrderPage.jsx:158 | The status buttons are rendered exactly for an order whose `status` is the string "PENDING". |
| CreateOrder.SetField | frontend/src/components/orders/CreateOrder.jsx:13 | Exactly the named field takes the value, and every other field and the images stay. |
| CreateOrder.HandleItemChange | frontend/src/components/orders/CreateOrder.jsx:11-15 | One field of one draft changes, and every other draft is identical. |
| CreateOrder.AddItem | frontend/src/components/orders/CreateOrder.jsx:17-19 | One blank draft is appended, and the existing drafts are unchanged. |
| CreateOrder.KeepOthers | frontend/src/components/orders/CreateOrder.jsx:22 | Filtering by position drops exactly the element at that index, or nothing when the index is out of range. |
| CreateOrder.RemoveItem | frontend/src/components/orders/CreateOrder.jsx:21-23 | Exactly the draft at the index is removed and the others keep their order. An out-of-range index changes nothing. |
| CreateOrder.RemoveKeepsOneItem | frontend/src/components/orders/CreateOrder.jsx:21-181 | With the button shown (more than one draft), removal never empties the list. |
| CreateOrder.SpliceOne | frontend/src/components/orders/CreateOrder.jsx:33 | `splice(start, 1)` drops the element at the resolved start. Negative starts count from the end and are clamped at 0. |
| CreateOrder.FilterAgreesWithSplice | frontend/src/components/orders/CreateOrder.jsx:21-34 | For a non-negative index, removal by filter and removal by splice agree. |
| CreateOrder.RemoveImage | frontend/src/components/orders/CreateOrder.jsx:31-35 | Exactly one image of one draft is dropped, and everything else is unchanged. |
| CreateOrder.HandleImageChange | frontend/src/components/orders/CreateOrder.jsx:25-29 | The draft's images become the chosen files, and everything else is unchanged. |
| CreateOrder.AddImages | frontend/src/components/orders/CreateOrder.jsx:170-174 | The chosen files are appended after the draft's images, and everything else is unchanged. |
| CreateOrder.OrderName | frontend/src/components/orders/CreateOrder.jsx:45 | The name is `other_name` when non-empty, otherwise `appliance_type`. |
| CreateOrder.ItemEntries | frontend/src/components/orders/CreateOrder.jsx:44-50 | An item yields `order_name`, `order_details` and `quantity`, then one `images` entry per file in order, all under `items[i]` keys. |
| CreateOrder.Serialize | frontend/src/components/orders/CreateOrder.jsx:43-51 | The body has Σ(3 + images) entries. |
| CreateOrder.SerializeBlocks | frontend/src/components/orders/CreateOrder.jsx:43-51 | Each item's entries form one contiguous block at its offset, in item order. |
| Seqs.BlocksLength | frontend/src/components/orders/CreateOrder.jsx:43-51 | When every block of an element has a fixed length, the blocks together are as long as the sum of those lengths. |
| Seqs.BlockAt | frontend/src/components/orders/CreateOrder.jsx:43-51 | Block i of the concatenation starts after the lengths of the blocks before it and is exactly f(i, xs[i]). |
| Seqs.SortDesc | frontend/src/pages/Dashboard.jsx:91 | Sorting by non-increasing key gives a permutation of the input that is sorted. |
| Seqs.PrefixSubMultiset | frontend/src/pages/Dashboard.jsx:92 | A prefix, as `slice(0, 5)` takes, holds no element more often than the whole list. |
| CreateOrder.Submit | frontend/src/components/orders/CreateOrder.jsx:37-65 | The posted body is the serialised drafts. On success the form resets to one blank draft and the callback runs if given. On failure the drafts are kept, the error message is set and no callback runs. Loading ends false. |
| UpdateOrder.HandleItemChange | frontend/src/components/orders/UpdateOrder.jsx:7-11 | Only the named field of the item at the index changes. |
| UpdateOrder.Wrap | frontend/src/components/orders/UpdateOrder.jsx:15 | A file becomes exactly `{image: f}`. |
| UpdateOrder.HandleImageChange | frontend/src/components/orders/UpdateOrder.jsx:13-17 | The item's images become the chosen files, each wrapped, in order, and everything else is unchanged. |
| UpdateOrder.ToPayloadItem | frontend/src/components/orders/UpdateOrder.jsx:24-31 | A payload item carries the item's order_name, order_details, quantity and price. Every image becomes `{image: img.image}`. |
| UpdateOrder.BuildPayload | frontend/src/components/orders/UpdateOrder.jsx:22-33 | The payload status is the order's status. The items keep the same length and order. |
| UpdateOrder.ChosenFilesReachPayload | frontend/src/components/orders/UpdateOrder.jsx:13-33 | The chosen files reach the body as exactly `{image: f}` each, in order. |
| UpdateOrder.EditReachesPayload | frontend/src/components/orders/UpdateOrder.jsx:7-33 | Editing one field of one item changes exactly that value of the body. |
| UpdateOrder.Submit | frontend/src/components/orders/UpdateOrder.jsx:35-43 | The body sent is the payload. `onOrderUpdated` and then `onClose` run only after a successful PUT. |
| Register.Optional | frontend/src/pages/Register.jsx:46-47 | An optional field is absent iff its trimmed text is blank, and is otherwise the trimmed text. |
| Register.Payload | frontend/src/pages/Register.jsx:41-47 | The body always has fullname, email and password. Phone and address are trimmed and present only when not blank. |
| Register.ErrorMessage | frontend/src/pages/Register.jsx:80-90 | The email error wins, then the password error, then the generic message. With no response or no body, the message is "Something went wrong". |
| Register.WithRole | frontend/src/pages/Register.jsx:69-73 | The profile is kept, with `role` "staff" iff `is_staff` is truthy and "customer" otherwise. |
| Register.Submit | frontend/src/pages/Register.jsx:28-92 | A mismatch sets "Passwords do not match" and sends nothing. Otherwise registration is the first call. The page goes to `/menu` iff all three requests succeed. If registration or login throws, the banner shows that error's message, the state is untouched, and no later request is sent. |
| Register.RegisteredSession | frontend/src/pages/Register.jsx:50-79 | A full registration makes three calls. It stores both tokens and the role-tagged profile. The session's role follows `is_staff`, and it is authenticated iff the access token is non-empty. |
| Register.SessionAfterLogin | frontend/src/pages/Register.jsx:69-76 | The closing `login` keeps the given role, stores the tokens and the profile, and authenticates iff the access token is non-empty. |
| Register.ProfileFailureKeepsTokens | frontend/src/pages/Register.jsx:58-90 | When the profile fetch fails, the tokens stay stored while the session and the saved user are untouched. |
| Navbar.LinksToRender | frontend/src/components/layout/Navbar.jsx:26-42 | Staff links (Home, Dashboard, Staff Orders, Reports) are rendered iff the user is authenticated and staff. Otherwise the customer links (Home, Repair Orders) are rendered. |
| Navbar.OrdersClick | frontend/src/components/layout/Navbar.jsx:12-23 | Unauthenticated users go to `/login`. Authenticated users with role "staff" go to `/staff/orders`, and everyone else to `/orders`. |
| Navbar.Buttons | frontend/src/components/layout/Navbar.jsx:77-99 | Logout is shown iff the user is authenticated, and Login/Register iff not. |
| Navbar.OrdersButtonOnlyForCustomers | frontend/src/components/layout/Navbar.jsx:33-42 | The Repair Orders button is rendered iff the staff links are not. |
| Navbar.DerivedRoleRoutesCustomers | frontend/src/components/layout/Navbar.jsx:12-42 | When the customer bar is shown and the role follows `is_staff`, the Orders click goes to `/orders`. |
| VideoPlayer.Init | frontend/src/components/player/VideoPlayer.jsx:4-6 | The first source is shown, the next index follows it, and the invariant holds. |
| VideoPlayer.HandleEnded | frontend/src/components/player/VideoPlayer.jsx:27-31 | `current` takes the old `next`, `next` advances modulo n, and `showFirst` flips. The invariant is preserved. |
| VideoPlayer.EndedAdvances | frontend/src/components/player/VideoPlayer.jsx:27-31 | From a valid state, one call of `handleEnded` keeps the invariant, moves `current` on by one (back to 0 after the last source) and flips `showFirst`. |
| VideoPlayer.PlayAdvances | frontend/src/components/player/VideoPlayer.jsx:27-31 | After k ≤ n calls of `handleEnded`, the invariant holds and `current` has moved k places, wrapping past n. |
| VideoPlayer.PlayFlips | frontend/src/components/player/VideoPlayer.jsx:27-28 | After k calls, `showFirst` is flipped iff k is odd. |
| VideoPlayer.FullCycle | frontend/src/components/player/VideoPlayer.jsx:30-31 | After n calls, `current` and `next` are back where they started, and from the initial state that means source 0. |

## Left out

- **I/O and rendering.** Network dispatch, axios internals, `localStorage` as a browser API, `window.location`, React hooks, effects and rendering are all replaced by parameters and explicit results.
- **Concurrency.** Concurrent 401s each trigger their own refresh, and responses can arrive after logout. The model is sequential.
- **Floating point and locale.** `Number()` parsing is an oracle on the trimmed text, and money is integer paisa. `toFixed` and the average's division are left out: `Dashboard.AverageOf` returns the sum and the count. `Date` parsing, month extraction and `toLocaleDateString` are left out too, so the per-day series `salesByDate` (frontend/src/pages/Dashboard.jsx:66-74) is not modelled and months are given.
- **Side effects of nested requests.** Inside the registration and rehydration chains, the effects of the HTTP client's response step are not modelled: each request's result is given as a whole.
- **Non-array answers.** The customer order list and the staff page store `res.data` without a check. The model takes those answers as lists.
- **Request encodings.** The string conversion `FormData` applies to the staff PATCH body is left out, and so is the removal of `undefined` values by `JSON.stringify` in the update payload.
- **In-place mutation.** `CreateOrder` and `UpdateOrder` mutate item objects that the previous state shares. The model builds fresh values, so aliasing between renders is not modelled.
- StaffOrders.ToNumber: every opaque reference, arrays included, gives NaN. JavaScript's `Number([])` is 0 and `Number([x])` is `Number(x)`, but the page's price inputs never hold an array.
- **Property keys.** `priceInputs` is keyed by the id value itself. JavaScript turns property keys into strings, so the ids `5` and `"5"` would share one input, while the model keeps them apart. For the numeric ids the backend sends, the two readings agree.
- **Index preconditions.** The handlers' index preconditions reflect that they are only reached from rendered rows.
- **Other backend and client code.** The backend user views, the routes, the order serializer, the other pages and the presentation components are not part of this model. The serializer's read-only `total_price`, `customer` and `items` enter `OrderViews` as the fields a payload can carry.
- Dashboard.TopCustomers: the ordering among customers with equal counts (the stable sort) is not stated. Sortedness, length and the sub-multiset of the tally are proved.
- OrderModels.ItemTotal: money is unbounded integer paisa. The `DecimalField(max_digits=10, decimal_places=2)` bound on `price` (backend/orders/models.py:53) is not modelled, so a line total that the database could not hold is still computed.
- OrderModels.UpdateTotalPrice: the same bound on `total_price` (backend/orders/models.py:23) is not modelled. On a backend that enforces it, saving a total of 10^8 rupees or more fails, while the model stores any total.
- VideoPlayer.PlayAdvances: is stated for at most one full lap (k ≤ n). Longer runs follow by applying `FullCycle` again.
- Api.Send: the storage postcondition is stated as a disjunction. The exact storage of each path is in the `ApiProperties` lemmas.

Other observations on the code as written, each proved in the model:

- The `403` branch of `cancel` cannot be reached (`OrderViewsProperties.CancelNeverForbidden`).
- The "PENDING" status that the staff buttons and the status chart test for is not one of the model's choices (`StaffOrders.NoActionsForStoredOrders`, `Dashboard.PendingSliceEmpty`).
- The dashboard matches `order.customer?.id`, while the order serializer sends the customer as a key. All top-customer counts are then 0 (`Dashboard.BareKeysCountNothing`).
- The navigation bar chooses links by `is_staff` but routes by `role` (`Navbar.DerivedRoleRoutesCustomers`).
- An order fetched without a price shows an empty input, and setting it sends a price of 0 (`StaffOrders.BlankInputSendsZero`).

## Findings

| source | as written | input that shows it | evidently intended | confidence | as-written member | corrected member |
|---|---|---|---|---|---|---|
| frontend/src/contexts/AuthContext.jsx:18-32 | A successful first profile fetch sets the user but never the in-memory token. The token was only restored when a user was also saved. | Storage `{access_token: "A1"}` with no `user` (what a registration whose profile fetch failed leaves, `Register.ProfileFailureKeepsTokens`), then a successful profile fetch. The page renders with a loaded user and `isAuthenticated` false. | The saved access token is adopted with the fetched user, so a user is loaded iff a token is. | not executed | AuthProperties.RehydrateCanLeaveUserWithoutToken | AuthProperties.RehydrateFixedConsistent |
| backend/orders/views.py:32-38 | `perform_destroy` returns a 400 response for a completed or rejected order, but the framework ignores that return value and answers 204 No Content. | The owner deletes their COMPLETED order: the order stays and the client is told 204. | The refusal reaches the client as 400 and the order stays. This reads `Order.Status.X` as the string "X". Taken literally, line 33 raises first and the client gets 500, as the next row explains. | not executed | OrderViewsProperties.DestroyClosedAnswersNoContent | OrderViews.DestroyFixed |
| backend/orders/views.py:48-49 | `cancel` reads `Order.Status.COMPLETED`, but `Order` declares only `STATUS_CHOICES`. Once the ownership check passes, the attribute lookup raises and the server answers 500. The same lookup appears in `perform_destroy` (line 33) and `reports` (lines 57-59). | The owner cancels their ON_GOING order: 500, nothing saved. | An open order becomes REJECTED with 200, and a closed one is left as it is. | not executed | OrderViewsProperties.CancelAsWrittenFails | OrderViews.CancelOrder |

=== FILE: api.dfy ===
/**
 * The authenticated request pipeline of the HTTP client: a request step that
 * attaches `Authorization: Bearer <token>` (section 2.1 of RFC 6750) and a
 * response step that answers a 401 by refreshing the access token once and
 * retrying the request once, and otherwise ends the session.
 *
 * The backend and the token-refresh endpoint are oracles: `backend` maps the
 * request as dispatched to what the network answers, `refresh` maps a refresh
 * token to what the refresh endpoint answers. A run records every call it
 * makes, so the number of dispatches and refreshes can be stated.
 */
module Api {
  import opened Basics
  import opened Json
  import opened Storage

  datatype Request = Request(verb: string, url: string, headers: map<string, string>, retry: bool)

  datatype Response = Response(status: int, data: Value)

  /** What the network gives back for one dispatch: a response of any status, or nothing. */
  datatype Reply = Answered(response: Response) | NoAnswer

  /** The client's error object: the response when there was one, and the request as sent. */
  datatype ClientError = ClientError(response: Option<Response>, config: Request)

  /** What the caller of the pipeline observes: a resolved or a rejected promise. */
  datatype Outcome = Resolved(response: Response) | Rejected(error: ClientError)

  /** What the refresh endpoint answers: a new access token, or an error. */
  datatype RefreshReply = Issued(access: string) | Refused(error: ClientError)

  /** A network call made while serving one logical request. */
  datatype Call = Dispatch(request: Request) | RefreshCall(refreshToken: string)

  /** One logical request served: its outcome, the storage after it, the redirect if any, the calls made. */
  datatype Run = Run(outcome: Outcome, store: Store, redirect: Option<string>, calls: seq<Call>)

  const LoginPath: string := "/login"

  function Bearer(token: string): string {
    "Bearer " + token
  }

  /** The request step: attach the stored access token, if there is one. */
  function Attach(req: Request, st: Store): (r: Request)
    ensures Token(st, AccessKey).Some? ==>
              r == req.(headers := req.headers["Authorization" := Bearer(Token(st, AccessKey).value)])
    ensures Token(st, AccessKey).None? ==> r == req
  {
    match Token(st, AccessKey)
    case Some(token) => req.(headers := req.headers["Authorization" := Bearer(token)])
    case None => req
  }

  /** The client's status check: a 2xx response resolves, anything else rejects. */
  function Settle(sent: Request, reply: Reply): (o: Outcome)
    ensures o.Resolved? <==> reply.Answered? && 200 <= reply.response.status < 300
    ensures o.Resolved? ==> o.response == reply.response
    ensures o.Rejected? ==> o.error.config == sent
    ensures o.Rejected? ==> o.error.response == (if reply.Answered? then Some(reply.response) else None)
  {
    match reply
    case Answered(resp) =>
      if 200 <= resp.status < 300 then Resolved(resp) else Rejected(ClientError(Some(resp), sent))
    case NoAnswer => Rejected(ClientError(None, sent))
  }

  /** The condition under which the response step attempts a refresh. */
  predicate Unauthorized(e: ClientError) {
    e.response.Some? && e.response.value.status == 401
  }

  function Dispatches(calls: seq<Call>): nat {
    if |calls| == 0 then 0 else (if calls[0].Dispatch? then 1 else 0) + Dispatches(calls[1..])
  }

  function Refreshes(calls: seq<Call>): nat {
    if |calls| == 0 then 0 else (if calls[0].RefreshCall? then 1 else 0) + Refreshes(calls[1..])
  }

  lemma CountsConcat(a: seq<Call>, b: seq<Call>)
    ensures Dispatches(a + b) == Dispatches(a) + Dispatches(b)
    ensures Refreshes(a + b) == Refreshes(a) + Refreshes(b)
  {
    if |a| > 0 {
      assert (a + b)[1..] == a[1..] + b;
      CountsConcat(a[1..], b);
    } else {
      assert a + b == b;
    }
  }

  /**
   * Serve one logical request: attach the token, dispatch, and handle the
   * response. A 401 on a request not yet marked retried marks it, reads the
   * refresh token, and either refreshes and re-sends it through the whole
   * pipeline, or clears the session and redirects to the login page.
   */
  function Send(req: Request, st: Store, backend: Request -> Reply, refresh: string -> RefreshReply): (r: Run)
    decreases if req.retry then 0 else 1
    ensures 1 <= |r.calls| && r.calls[0] == Dispatch(Attach(req, st))
    ensures Dispatches(r.calls) <= 2 && Refreshes(r.calls) <= 1
    ensures req.retry ==> r.calls == [Dispatch(Attach(req, st))] && r.store == st && r.redirect.None?
    ensures r.store == st || r.store == ClearSession(st)
            || exists a :: r.store == st[AccessKey := Text(a)]
  {
    var sent := Attach(req, st);
    var first := [Dispatch(sent)];
    match Settle(sent, backend(sent))
    case Resolved(resp) => Run(Resolved(resp), st, None, first)
    case Rejected(err) =>
      if Unauthorized(err) && !err.config.retry then
        var marked := err.config.(retry := true);
        match Token(st, RefreshKey)
        case Some(rt) =>
          (match refresh(rt)
           case Issued(access) =>
             var st' := st[AccessKey := Text(access)];
             var again := marked.(headers := marked.headers["Authorization" := Bearer(access)]);
             var inner := Send(again, st', backend, refresh);
             var calls := first + [RefreshCall(rt)] + inner.calls;
             CountsConcat(first + [RefreshCall(rt)], inner.calls);
             CountsConcat(first, [RefreshCall(rt)]);
             inner.(calls := calls)
           case Refused(e) =>
             CountsConcat(first, [RefreshCall(rt)]);
             Run(Rejected(e), ClearSession(st), Some(LoginPath), first + [RefreshCall(rt)]))
        case None =>
          Run(Rejected(err), ClearSession(st), Some(LoginPath), first)
      else
        Run(Rejected(err), st, None, first)
  }
}

/** Properties of the pipeline, one per path through the response step. */
module ApiProperties {
  import opened Basics
  import opened Json
  import opened Storage
  import opened Api

  /** The outgoing request carries the stored token as a bearer credential; without one its headers are untouched. */
  lemma BearerFollowsStorage(req: Request, st: Store)
    ensures Token(st, AccessKey).Some? ==>
              "Authorization" in Attach(req, st).headers
              && Attach(req, st).headers["Authorization"] == "Bearer " + Token(st, AccessKey).value
    ensures forall h :: h in req.headers && h != "Authorization" ==>
              h in Attach(req, st).headers && Attach(req, st).headers[h] == req.headers[h]
    ensures Token(st, AccessKey).None? ==> Attach(req, st).headers == req.headers
    ensures Attach(req, st).retry == req.retry && Attach(req, st).url == req.url
  {
  }

  /** A 2xx response reaches the caller unchanged, with one dispatch and storage untouched. */
  lemma SuccessPassesThrough(req: Request, st: Store, backend: Request -> Reply, refresh: string -> RefreshReply)
    requires backend(Attach(req, st)).Answered?
    requires 200 <= backend(Attach(req, st)).response.status < 300
    ensures Send(req, st, backend, refresh)
         == Run(Resolved(backend(Attach(req, st)).response), st, None, [Dispatch(Attach(req, st))])
  {
  }

  /** Any failure other than a 401 is rejected as that very error: no refresh, no storage change, no redirect. */
  lemma BusinessErrorPassesThrough(req: Request, st: Store, backend: Request -> Reply, refresh: string -> RefreshReply)
    requires var reply := backend(Attach(req, st));
             !(reply.Answered? && 200 <= reply.response.status < 300)
             && !(reply.Answered? && reply.response.status == 401)
    ensures var reply := backend(Attach(req, st));
            var err := ClientError(if reply.Answered? then Some(reply.response) else None, Attach(req, st));
            Send(req, st, backend, refresh) == Run(Rejected(err), st, None, [Dispatch(Attach(req, st))])
  {
  }

  /** A 401 on a request already marked as retried is rejected as that 401 and triggers nothing. */
  lemma RetriedUnauthorizedIsTerminal(req: Request, st: Store, backend: Request -> Reply, refresh: string -> RefreshReply)
    requires req.retry
    requires backend(Attach(req, st)).Answered? && backend(Attach(req, st)).response.status == 401
    ensures Send(req, st, backend, refresh)
         == Run(Rejected(ClientError(Some(backend(Attach(req, st)).response), Attach(req, st))), st, None,
                [Dispatch(Attach(req, st))])
    ensures Refreshes(Send(req, st, backend, refresh).calls) == 0
  {
  }

  /** The request as the pipeline re-sends it after a successful refresh. */
  function Retried(req: Request, st: Store, access: string): Request {
    var marked := Attach(req, st).(retry := true);
    Attach(marked.(headers := marked.headers["Authorization" := Bearer(access)]), st[AccessKey := Text(access)])
  }

  /**
   * A first 401 with a stored refresh token that the endpoint honours: the new
   * access token replaces the old one and nothing else in storage changes, the
   * request is re-sent once with the new bearer, and the caller receives
   * whatever that second dispatch produces.
   */
  lemma RefreshThenRetry(req: Request, st: Store, backend: Request -> Reply, refresh: string -> RefreshReply,
                         rt: string, access: string)
    requires !req.retry
    requires backend(Attach(req, st)).Answered? && backend(Attach(req, st)).response.status == 401
    requires Token(st, RefreshKey) == Some(rt)
    requires refresh(rt) == Issued(access)
    ensures var r := Send(req, st, backend, refresh);
            && r.store == st[AccessKey := Text(access)]
            && (forall k :: k in st && k != AccessKey ==> k in r.store && r.store[k] == st[k])
            && r.calls == [Dispatch(Attach(req, st)), RefreshCall(rt), Dispatch(Retried(req, st, access))]
            && r.outcome == Settle(Retried(req, st, access), backend(Retried(req, st, access)))
            && r.redirect.None?
            && Dispatches(r.calls) == 2 && Refreshes(r.calls) == 1
    ensures Retried(req, st, access).retry
    ensures Retried(req, st, access).headers["Authorization"] == Bearer(access)
  {
    var r := Send(req, st, backend, refresh);
    assert r.calls == [Dispatch(Attach(req, st)), RefreshCall(rt), Dispatch(Retried(req, st, access))];
    assert r.calls[1..][1..] == [Dispatch(Retried(req, st, access))];
  }

  /** A refresh the endpoint refuses ends the session: the caller sees the refresh error, not the 401. */
  lemma RefreshFailureLogsOut(req: Request, st: Store, backend: Request -> Reply, refresh: string -> RefreshReply,
                              rt: string, e: ClientError)
    requires !req.retry
    requires backend(Attach(req, st)).Answered? && backend(Attach(req, st)).response.status == 401
    requires Token(st, RefreshKey) == Some(rt)
    requires refresh(rt) == Refused(e)
    ensures Send(req, st, backend, refresh)
         == Run(Rejected(e), ClearSession(st), Some("/login"), [Dispatch(Attach(req, st)), RefreshCall(rt)])
  {
  }

  /** A first 401 with no refresh token ends the session and rejects with the original 401. */
  lemma NoRefreshTokenLogsOut(req: Request, st: Store, backend: Request -> Reply, refresh: string -> RefreshReply)
    requires !req.retry
    requires backend(Attach(req, st)).Answered? && backend(Attach(req, st)).response.status == 401
    requires Token(st, RefreshKey).None?
    ensures Send(req, st, backend, refresh)
         == Run(Rejected(ClientError(Some(backend(Attach(req, st)).response), Attach(req, st))),
                ClearSession(st), Some("/login"), [Dispatch(Attach(req, st))])
  {
  }

  /**
   * The refresh call goes to the endpoint directly, outside the pipeline: in
   * every run, a refresh call is the second call, carries the stored refresh
   * token, and is never itself retried or refreshed.
   */
  lemma RefreshCallIsNotIntercepted(req: Request, st: Store, backend: Request -> Reply, refresh: string -> RefreshReply)
    ensures var r := Send(req, st, backend, refresh);
            forall i :: 0 <= i < |r.calls| && r.calls[i].RefreshCall? ==>
              i == 1 && Token(st, RefreshKey) == Some(r.calls[i].refreshToken)
              && (forall j :: 0 <= j < |r.calls| && j != i ==> r.calls[j].Dispatch?)
  {
    var r := Send(req, st, backend, refresh);
    var sent := Attach(req, st);
    match Settle(sent, backend(sent))
    case Resolved(_) =>
    case Rejected(err) =>
      if Unauthorized(err) && !err.config.retry {
        match Token(st, RefreshKey)
        case Some(rt) =>
          match refresh(rt) {
            case Issued(access) =>
              assert r.calls == [Dispatch(sent), RefreshCall(rt), Dispatch(Retried(req, st, access))];
            case Refused(_) =>
          }
        case None =>
      }
  }
}

=== FILE: auth.dfy ===
/**
 * The session store of the client: the in-memory user and access token, the
 * `loading` flag that holds back rendering, and the three storage keys that
 * keep a session across page loads. `login` and `logout` are transitions of
 * this state; rehydration on page load is a decision tree over the results of
 * the profile fetches and the refresh call, which are given as oracle results.
 */
module Auth {
  import opened Basics
  import opened Json
  import opened Storage
  import Api

  datatype Session = Session(user: Option<Object>, accessToken: Option<string>, loading: bool)

  /** The session, the browser storage, and where the page was sent (`window.location.href`). */
  datatype State = State(session: Session, store: Store, redirect: Option<string>)

  const Initial: Session := Session(None, None, true)

  /** `isAuthenticated: !!accessToken`. */
  predicate IsAuthenticated(s: Session) {
    s.accessToken.Some? && s.accessToken.value != ""
  }

  /** `role: user?.role || null`. */
  function Role(s: Session): (r: Value)
    ensures s.user.None? ==> r == Null
    ensures s.user.Some? && Truthy(Get(s.user.value, "role")) ==> r == Get(s.user.value, "role")
    ensures s.user.Some? && !Truthy(Get(s.user.value, "role")) ==> r == Null
  {
    if s.user.Some? then Or(Get(s.user.value, "role"), Null) else Null
  }

  /** Children are rendered once loading is over. */
  predicate RendersChildren(s: Session) {
    !s.loading
  }

  /**
   * The in-memory user `login` keeps, `{ ...userData, role: userData.role || "customer" }`:
   * every profile field, with a role that is always set and truthy.
   */
  function WithDefaultRole(userData: Object): (r: Object)
    ensures r.Keys == userData.Keys + {"role"}
    ensures "role" in r && Truthy(r["role"])
    ensures Truthy(Get(userData, "role")) ==> r["role"] == userData["role"]
    ensures !Truthy(Get(userData, "role")) ==> r["role"] == Str("customer")
    ensures forall k :: k in userData && k != "role" ==> r[k] == userData[k]
  {
    userData["role" := Or(Get(userData, "role"), Str("customer"))]
  }

  /**
   * `login(userData, access, refresh)`. Reading `userData.role` on a missing
   * profile throws before any state is touched: that call yields `None`.
   */
  function Login(st: State, userData: Option<Object>, access: string, refresh: Option<string>): (r: Option<State>)
    ensures userData.None? <==> r.None?
    ensures r.Some? ==>
              var u := userData.value;
              && r.value.session.user == Some(WithDefaultRole(u))
              && r.value.session.accessToken == Some(access)
              && r.value.session.loading == st.session.loading
              && r.value.redirect == st.redirect
  {
    match userData
    case None => None
    case Some(u) =>
      var st1 := st.store[AccessKey := Text(access)];
      var st2 := if refresh.Some? && refresh.value != "" then st1[RefreshKey := Text(refresh.value)] else st1;
      var st3 := st2[UserKey := Record(u)];
      Some(State(Session(Some(WithDefaultRole(u)), Some(access), st.session.loading), st3, st.redirect))
  }

  /** `logout()`: both in-memory fields nulled, exactly the three keys removed, redirect to the login page. */
  function Logout(st: State): (r: State)
    ensures r.session.user.None? && r.session.accessToken.None? && !IsAuthenticated(r.session)
    ensures r.session.loading == st.session.loading
    ensures r.store.Keys == st.store.Keys - SessionKeys
    ensures forall k :: k in r.store ==> r.store[k] == st.store[k]
    ensures r.redirect == Some(Api.LoginPath)
  {
    State(Session(None, None, st.session.loading), ClearSession(st.store), Some(Api.LoginPath))
  }

  // ---------------------------------------------------------------------------
  // Rehydration on page load
  // ---------------------------------------------------------------------------

  /** What a profile fetch gives back. */
  datatype Fetch = Fetched(data: Object) | FetchFailed

  /** A step of rehydration, in the order it happens. */
  datatype Event = ProfileFetch | RefreshCall(token: string) | LoggedOut | LoadingDone

  /** Where rehydration ends: the final state and the steps it took. */
  datatype Boot = Boot(state: State, events: seq<Event>)

  /**
   * The synchronous part of rehydration: restore the in-memory session from
   * storage when both a saved access token and a saved user exist. A saved
   * user that is not a serialised object makes `JSON.parse` throw after the
   * token was restored: that yields `None` together with the token.
   */
  function Restore(st: Store): (r: (Session, bool))
    ensures var (s, parsed) := r;
            && s.loading
            && (s.accessToken.Some? <==> Token(st, AccessKey).Some? && Entry(st, UserKey).Some?)
            && (s.accessToken.Some? ==> s.accessToken == Token(st, AccessKey))
            && (s.user.Some? <==> s.accessToken.Some? && parsed)
            && (parsed <==> !(s.accessToken.Some? && Entry(st, UserKey).value.Text?))
            && (s.user.Some? ==> Entry(st, UserKey) == Some(Record(s.user.value)))
  {
    match (Token(st, AccessKey), Entry(st, UserKey))
    case (Some(access), Some(Record(u))) => (Session(Some(u), Some(access), true), true)
    case (Some(access), Some(Text(_))) => (Session(None, Some(access), true), false)
    case _ => (Initial, true)
  }

  /**
   * Rehydration as the provider's effect performs it: restore, then, when an
   * access token was saved, fetch the profile; on failure refresh with the
   * saved refresh token and fetch once more; any failure along that chain
   * logs out; `loading` goes false once the chain is over. A successful first
   * fetch sets the user but leaves the in-memory token as restoring left it,
   * and stores the profile as it came, without the role default.
   */
  function Rehydrate(st: Store, first: Fetch, refresh: Api.RefreshReply, second: Fetch): (r: Boot)
    ensures Restore(st).1 && Token(st, AccessKey).Some? && first.Fetched? ==>
              && r.state.session.user == Some(WithDefaultRole(first.data))
              && r.state.session.accessToken == Restore(st).0.accessToken
              && r.state.store == st[UserKey := Record(first.data)]
              && r.events == [ProfileFetch, LoadingDone]
              && r.state.redirect.None?
  {
    Chain(st, first, refresh, second, false)
  }

  /**
   * Rehydration with the saved access token adopted when the first profile
   * fetch succeeds, so that a loaded user always comes with its token.
   */
  function RehydrateFixed(st: Store, first: Fetch, refresh: Api.RefreshReply, second: Fetch): (r: Boot)
    ensures Restore(st).1 && Token(st, AccessKey).Some? && first.Fetched? ==>
              && r.state.session.user == Some(WithDefaultRole(first.data))
              && r.state.session.accessToken == Token(st, AccessKey)
              && r.state.store == st[UserKey := Record(first.data)]
              && r.events == [ProfileFetch, LoadingDone]
              && r.state.redirect.None?
  {
    Chain(st, first, refresh, second, true)
  }

  /**
   * The rehydration chain; `adoptToken` selects the corrected first-fetch
   * branch. Whichever branch runs, the page is sent to the login page exactly
   * when the chain logs out, and then nothing of the session is left; a token
   * kept in memory is the one storage holds; entries other than the session
   * keys are never touched.
   */
  function Chain(st: Store, first: Fetch, refresh: Api.RefreshReply, second: Fetch, adoptToken: bool): (r: Boot)
    ensures r.state.redirect.Some? <==> LoggedOut in r.events
    ensures r.state.redirect.Some? ==> && r.state.redirect == Some(Api.LoginPath)
                                       && r.state.session == Session(None, None, false)
                                       && r.state.store.Keys == st.Keys - SessionKeys
    ensures r.state.session.accessToken.Some? ==>
              AccessKey in r.state.store && r.state.store[AccessKey] == Text(r.state.session.accessToken.value)
    ensures forall k :: k in st && k !in SessionKeys ==> k in r.state.store && r.state.store[k] == st[k]
  {
    var (restored, parsed) := Restore(st);
    var savedAccess := Token(st, AccessKey);
    var savedRefresh := Token(st, RefreshKey);
    var s := State(restored, st, None);
    if !parsed then Boot(s, [])
    else if savedAccess.None? then Boot(Done(s), [LoadingDone])
    else match first
      case Fetched(data) =>
        var token := if adoptToken then savedAccess else restored.accessToken;
        var st' := State(Session(Some(WithDefaultRole(data)), token, true), st[UserKey := Record(data)], None);
        Boot(Done(st'), [ProfileFetch, LoadingDone])
      case FetchFailed =>
        match savedRefresh
        case None => Boot(Done(Logout(s)), [ProfileFetch, LoggedOut, LoadingDone])
        case Some(rt) =>
          match refresh
          case Refused(_) => Boot(Done(Logout(s)), [ProfileFetch, RefreshCall(rt), LoggedOut, LoadingDone])
          case Issued(access) =>
            var s1 := State(s.session.(accessToken := Some(access)), st[AccessKey := Text(access)], None);
            match second
            case Fetched(data) =>
              var s2 := s1.(session := s1.session.(user := Some(data)), store := s1.store[UserKey := Record(data)]);
              Boot(Done(s2), [ProfileFetch, RefreshCall(rt), ProfileFetch, LoadingDone])
            case FetchFailed =>
              Boot(Done(Logout(s1)), [ProfileFetch, RefreshCall(rt), ProfileFetch, LoggedOut, LoadingDone])
  }

  /** A session is whole: a user in memory exactly when a token is. */
  predicate Consistent(s: Session) {
    s.user.Some? <==> s.accessToken.Some?
  }

  /** `setLoading(false)`. */
  function Done(s: State): State {
    s.(session := s.session.(loading := false))
  }
}

/** Properties of the session store: its transitions and the rehydration decision tree. */
module AuthProperties {
  import opened Basics
  import opened Json
  import opened Storage
  import Api
  import opened Auth

  /**
   * What `login` writes: the access token always; the refresh token only when
   * one is given (otherwise the stored one stays); the raw profile, without the
   * defaulted role; nothing else.
   */
  lemma LoginWrites(st: State, u: Object, access: string, refresh: Option<string>)
    ensures var r := Login(st, Some(u), access, refresh).value;
            && r.store[AccessKey] == Text(access)
            && r.store[UserKey] == Record(u)
            && (refresh.Some? && refresh.value != "" ==> r.store[RefreshKey] == Text(refresh.value))
            && (!(refresh.Some? && refresh.value != "") ==>
                  (RefreshKey in r.store <==> RefreshKey in st.store)
                  && (RefreshKey in st.store ==> r.store[RefreshKey] == st.store[RefreshKey]))
            && r.store.Keys == st.store.Keys + {AccessKey, UserKey}
                               + (if refresh.Some? && refresh.value != "" then {RefreshKey} else {})
            && (forall k :: k in st.store && k !in SessionKeys ==> r.store[k] == st.store[k])
  {
  }

  /** After `login` the session is authenticated exactly when the access token is non-empty, and the role is never null. */
  lemma LoginAuthenticates(st: State, u: Object, access: string, refresh: Option<string>)
    ensures var r := Login(st, Some(u), access, refresh).value;
            && (IsAuthenticated(r.session) <==> access != "")
            && (Truthy(Get(u, "role")) ==> Role(r.session) == Get(u, "role"))
            && (!Truthy(Get(u, "role")) ==> Role(r.session) == Str("customer"))
            && (forall k :: k in u && k != "role" ==> k in r.session.user.value && r.session.user.value[k] == u[k])
  {
  }

  /** Logging out twice ends in the same state as logging out once. */
  lemma LogoutIdempotent(st: State)
    ensures Logout(Logout(st)) == Logout(st)
  {
    assert ClearSession(ClearSession(st.store)) == ClearSession(st.store);
  }

  /** With no saved access token nothing is fetched, nothing is written, and loading ends at once. */
  lemma RehydrateWithoutToken(st: Store, first: Fetch, refresh: Api.RefreshReply, second: Fetch)
    requires Token(st, AccessKey).None?
    ensures var b := Rehydrate(st, first, refresh, second);
            && b.events == [LoadingDone]
            && b.state == State(Session(None, None, false), st, None)
  {
  }

  /** `loading` goes false exactly once, as the last step, unless restoring the saved user threw. */
  lemma RehydrateLoadingEndsLast(st: Store, first: Fetch, refresh: Api.RefreshReply, second: Fetch)
    ensures var b := Rehydrate(st, first, refresh, second);
            var parsed := Restore(st).1;
            && (parsed ==> |b.events| > 0 && b.events[|b.events| - 1] == LoadingDone
                           && (forall i :: 0 <= i < |b.events| - 1 ==> b.events[i] != LoadingDone)
                           && RendersChildren(b.state.session))
            && (!parsed ==> b.events == [] && !RendersChildren(b.state.session))
  {
  }

  /**
   * A failed first profile fetch ends in logout when there is no saved refresh
   * token, when the refresh is refused, or when the second fetch fails too.
   */
  lemma RehydrateFailureLogsOut(st: Store, refresh: Api.RefreshReply, second: Fetch)
    requires Token(st, AccessKey).Some? && Restore(st).1
    requires Token(st, RefreshKey).None? || refresh.Refused? || second.FetchFailed?
    ensures var b := Rehydrate(st, FetchFailed, refresh, second);
            && LoggedOut in b.events
            && b.state.session == Session(None, None, false)
            && b.state.store.Keys == st.Keys - SessionKeys
            && b.state.redirect == Some(Api.LoginPath)
  {
  }

  /**
   * A failed first profile fetch, a successful refresh and a successful retry:
   * the new token is stored and kept in memory, and the fetched profile is
   * stored and loaded as it came, without the role default that the first
   * fetch applies. No other key changes and nobody is logged out.
   */
  lemma RehydrateRefreshThenRetry(st: Store, rt: string, access: string, data: Object)
    requires Token(st, AccessKey).Some? && Restore(st).1
    requires Token(st, RefreshKey) == Some(rt)
    ensures var b := Rehydrate(st, FetchFailed, Api.Issued(access), Fetched(data));
            && b.events == [ProfileFetch, RefreshCall(rt), ProfileFetch, LoadingDone]
            && b.state.session == Session(Some(data), Some(access), false)
            && ("role" !in data ==> "role" !in b.state.session.user.value)
            && b.state.store == st[AccessKey := Text(access)][UserKey := Record(data)]
            && (forall k :: k in st && k != AccessKey && k != UserKey ==> b.state.store[k] == st[k])
            && b.state.redirect.None?
  {
  }

  /** A profile fetch is made only when an access token was saved, and the refresh only with the saved refresh token. */
  lemma RehydrateCallsNeedTokens(st: Store, first: Fetch, refresh: Api.RefreshReply, second: Fetch)
    ensures var b := Rehydrate(st, first, refresh, second);
            && (ProfileFetch in b.events ==> Token(st, AccessKey).Some?)
            && (forall i :: 0 <= i < |b.events| && b.events[i].RefreshCall? ==>
                  Some(b.events[i].token) == Token(st, RefreshKey) && first.FetchFailed?)
  {
  }

  /**
   * As written, a saved access token without a saved user (what a failed
   * profile fetch during registration leaves behind) rehydrates into a loaded
   * user with no in-memory token: the page renders as logged out while a
   * profile is loaded.
   */
  lemma RehydrateCanLeaveUserWithoutToken()
    ensures var st: Store := map[AccessKey := Text("A1")];
            var b := Rehydrate(st, Fetched(map["id" := Num(1)]), Api.Issued("A2"), FetchFailed);
            && b.state.session.user.Some?
            && b.state.session.accessToken.None?
            && !Consistent(b.state.session)
            && RendersChildren(b.state.session)
  {
  }

  /** With the token adopted, every finished rehydration leaves a whole session. */
  lemma RehydrateFixedConsistent(st: Store, first: Fetch, refresh: Api.RefreshReply, second: Fetch)
    ensures var b := RehydrateFixed(st, first, refresh, second);
            RendersChildren(b.state.session) ==> Consistent(b.state.session)
  {
  }

  /** The correction changes nothing when a user was saved or the first fetch failed. */
  lemma RehydrateFixedAgrees(st: Store, first: Fetch, refresh: Api.RefreshReply, second: Fetch)
    requires Entry(st, UserKey).Some? || first.FetchFailed?
    ensures RehydrateFixed(st, first, refresh, second) == Rehydrate(st, first, refresh, second)
  {
  }
}

=== FILE: basics.dfy ===
/** Small failure-carrying datatypes shared by every module of the model. */
module Basics {

  /** A value that may be absent: JavaScript's `null`/`undefined`, Python's `None`. */
  datatype Option<T> = None | Some(value: T) {
    function GetOr(default: T): T {
      match this
      case Some(v) => v
      case None => default
    }
  }

  /** The result of an operation that either produces a value or fails with an error. */
  datatype Result<T, E> = Ok(value: T) | Err(error: E)

  function Min(a: int, b: int): int {
    if a <= b then a else b
  }
}

=== FILE: create_order.dfy ===
/**
 * The order-creation form: a list of draft items edited in place, and the
 * multipart body built from them on submit.
 */
module CreateOrder {
  import opened Json
  import opened Text
  import Seqs

  /** A file picked in a file input; the model only passes it along. */
  datatype File = File(name: string)

  /** One draft item of the form. `quantity` starts as the number 1 and becomes the input's text once edited. */
  datatype Draft = Draft(applianceType: string, otherName: string, description: string, quantity: Value, images: seq<File>)

  const Blank: Draft := Draft("", "", "", Num(1), [])

  /** The form's state: the drafts, the submit flag and the error banner. */
  datatype Form = Form(items: seq<Draft>, loading: bool, error: string)

  const Initial: Form := Form([Blank], false, "")

  // ---------------------------------------------------------------------------
  // Item list
  // ---------------------------------------------------------------------------

  datatype Field = ApplianceType | OtherName | ProblemDescription | Quantity

  /** `item[field] = value` for one of the fields the inputs edit. */
  function SetField(d: Draft, field: Field, value: string): (r: Draft)
    ensures r.images == d.images
    ensures r.applianceType == (if field == ApplianceType then value else d.applianceType)
    ensures r.otherName == (if field == OtherName then value else d.otherName)
    ensures r.description == (if field == ProblemDescription then value else d.description)
    ensures r.quantity == (if field == Quantity then Str(value) else d.quantity)
  {
    match field
    case ApplianceType => d.(applianceType := value)
    case OtherName => d.(otherName := value)
    case ProblemDescription => d.(description := value)
    case Quantity => d.(quantity := Str(value))
  }

  /** `handleItemChange(index, field, value)`, reached only from a rendered item. */
  function HandleItemChange(items: seq<Draft>, index: nat, field: Field, value: string): (r: seq<Draft>)
    requires index < |items|
    ensures |r| == |items|
    ensures r[index] == SetField(items[index], field, value)
    ensures forall j :: 0 <= j < |items| && j != index ==> r[j] == items[j]
  {
    items[index := SetField(items[index], field, value)]
  }

  /** `addItem`: one blank draft at the end. */
  function AddItem(items: seq<Draft>): (r: seq<Draft>)
    ensures |r| == |items| + 1 && r[..|items|] == items && r[|items|] == Blank
  {
    items + [Blank]
  }

  /** `xs.filter((_, i) => i !== index)`: every element whose position is not `index`. */
  function KeepOthers<T>(xs: seq<T>, index: int): (r: seq<T>)
    ensures 0 <= index < |xs| ==> r == xs[..index] + xs[index + 1..]
    ensures !(0 <= index < |xs|) ==> r == xs
  {
    if |xs| == 0 then []
    else
      var n := |xs|;
      var init := KeepOthers(xs[..n - 1], index);
      assert 0 <= index < n - 1 ==> xs[..n - 1][..index] == xs[..index];
      if index == n - 1 then
        assert xs[..n - 1] == xs[..index] + xs[index + 1..];
        init
      else
        assert 0 <= index < n - 1 ==> xs[..n - 1][index + 1..] + [xs[n - 1]] == xs[index + 1..];
        assert !(0 <= index < n) ==> xs[..n - 1] + [xs[n - 1]] == xs;
        init + [xs[n - 1]]
  }

  /** `removeItem(index)`. */
  function RemoveItem(items: seq<Draft>, index: int): (r: seq<Draft>)
    ensures 0 <= index < |items| ==> |r| == |items| - 1
    ensures 0 <= index < |items| ==> forall j :: 0 <= j < |r| ==> r[j] == items[if j < index then j else j + 1]
    ensures !(0 <= index < |items|) ==> r == items
  {
    KeepOthers(items, index)
  }

  /** The remove button is only rendered with more than one draft, so the form never loses its last item. */
  lemma RemoveKeepsOneItem(items: seq<Draft>, index: int)
    requires |items| > 1
    ensures |RemoveItem(items, index)| >= 1
  {
  }

  /** `xs.splice(start, 1)` on a copy: the element at the resolved start, if any, is dropped. */
  function SpliceOne<T>(xs: seq<T>, start: int): (r: seq<T>)
    ensures 0 <= start < |xs| ==> r == xs[..start] + xs[start + 1..]
    ensures start >= |xs| ==> r == xs
    ensures -|xs| <= start < 0 ==> r == xs[..|xs| + start] + xs[|xs| + start + 1..]
    ensures start < -|xs| && |xs| > 0 ==> r == xs[1..]
  {
    var at := if start < 0 then (if |xs| + start < 0 then 0 else |xs| + start) else start;
    if at < |xs| then xs[..at] + xs[at + 1..] else xs
  }

  /** Removing by filter (items) and by splice (images) agree on every non-negative position. */
  lemma FilterAgreesWithSplice<T>(xs: seq<T>, index: nat)
    ensures KeepOthers(xs, index) == SpliceOne(xs, index)
  {
  }

  /** `removeImage(itemIndex, imageIndex)`: one image of one draft. */
  function RemoveImage(items: seq<Draft>, itemIndex: nat, imageIndex: nat): (r: seq<Draft>)
    requires itemIndex < |items|
    ensures |r| == |items|
    ensures forall j :: 0 <= j < |items| && j != itemIndex ==> r[j] == items[j]
    ensures var (d, e) := (items[itemIndex], r[itemIndex]);
            && e == d.(images := e.images)
            && (imageIndex < |d.images| ==> e.images == d.images[..imageIndex] + d.images[imageIndex + 1..])
            && (imageIndex >= |d.images| ==> e.images == d.images)
  {
    var d := items[itemIndex];
    items[itemIndex := d.(images := SpliceOne(d.images, imageIndex))]
  }

  /** `handleImageChange(index, files)`: the draft's images become the chosen files. */
  function HandleImageChange(items: seq<Draft>, index: nat, files: seq<File>): (r: seq<Draft>)
    requires index < |items|
    ensures |r| == |items|
    ensures r[index] == items[index].(images := files)
    ensures forall j :: 0 <= j < |items| && j != index ==> r[j] == items[j]
  {
    items[index := items[index].(images := files)]
  }

  /** The extra-file input: the chosen files are appended after the draft's images. */
  function AddImages(items: seq<Draft>, index: nat, files: seq<File>): (r: seq<Draft>)
    requires index < |items|
    ensures |r| == |items|
    ensures |r[index].images| == |items[index].images| + |files|
    ensures r[index].images[..|items[index].images|] == items[index].images
    ensures r[index].images[|items[index].images|..] == files
    ensures r[index] == items[index].(images := r[index].images)
    ensures forall j :: 0 <= j < |items| && j != index ==> r[j] == items[j]
  {
    var d := items[index];
    var imgs := d.images + files;
    assert imgs[..|d.images|] == d.images && imgs[|d.images|..] == files;
    items[index := d.(images := imgs)]
  }

  // ---------------------------------------------------------------------------
  // Submit
  // ---------------------------------------------------------------------------

  /** A multipart part: text (what `FormData.append` makes of a non-file value) or a file. */
  datatype Part = TextPart(text: string) | FilePart(file: File)

  datatype Entry = Entry(key: string, part: Part)

  /** `String(v)`, as `FormData.append` converts a non-file value. */
  function FormString(v: Value): string {
    match v
    case Undefined => "undefined"
    case Null => "null"
    case Bool(b) => if b then "true" else "false"
    case Num(n) => IntToString(n)
    case Str(s) => s
    case Opaque(tag) => tag
  }

  /** `items[${idx}][${name}]`. */
  function Key(idx: nat, name: string): string {
    "items[" + NatToString(idx) + "][" + name + "]"
  }

  /** `item.other_name || item.appliance_type`. */
  function OrderName(d: Draft): (r: string)
    ensures d.otherName != "" ==> r == d.otherName
    ensures d.otherName == "" ==> r == d.applianceType
  {
    if d.otherName != "" then d.otherName else d.applianceType
  }

  /** The entries appended for the draft at position `idx`. */
  function ItemEntries(idx: nat, d: Draft): (r: seq<Entry>)
    ensures |r| == Width(d)
    ensures r[0] == Entry(Key(idx, "order_name"), TextPart(OrderName(d)))
    ensures r[1] == Entry(Key(idx, "order_details"), TextPart(d.description))
    ensures r[2] == Entry(Key(idx, "quantity"), TextPart(FormString(d.quantity)))
    ensures forall j :: 0 <= j < |d.images| ==> r[3 + j] == Entry(Key(idx, "images"), FilePart(d.images[j]))
  {
    [ Entry(Key(idx, "order_name"), TextPart(OrderName(d))),
      Entry(Key(idx, "order_details"), TextPart(d.description)),
      Entry(Key(idx, "quantity"), TextPart(FormString(d.quantity))) ]
    + seq(|d.images|, j requires 0 <= j < |d.images| => Entry(Key(idx, "images"), FilePart(d.images[j])))
  }

  /** Three text entries plus one per image. */
  function Width(d: Draft): int {
    3 + |d.images|
  }

  /** Where the entries of draft `i` start: after the entries of every earlier draft. */
  function Offset(items: seq<Draft>, i: nat): int
    requires i <= |items|
  {
    Seqs.Sum(items[..i], Width)
  }

  /** The multipart body, the drafts' entries one after another. */
  function Serialize(items: seq<Draft>): (r: seq<Entry>)
    ensures |r| == Seqs.Sum(items, Width)
  {
    Seqs.BlocksLength(items, ItemEntries, Width);
    Seqs.Blocks(items, ItemEntries)
  }

  /** The entries of each draft sit in one block, at its offset, in draft order. */
  lemma SerializeBlocks(items: seq<Draft>, i: nat)
    requires i < |items|
    ensures 0 <= Offset(items, i) && Offset(items, i) + Width(items[i]) <= |Serialize(items)|
    ensures Serialize(items)[Offset(items, i)..Offset(items, i) + Width(items[i])] == ItemEntries(i, items[i])
  {
    Seqs.BlockAt(items, ItemEntries, Width, i);
  }

  const CreateFailed: string := "अर्डर सिर्जना गर्न असफल। कृपया फेरि प्रयास गर्नुहोस्।"

  /** The outcome of `handleSubmit`: the form afterwards, the body that was posted, and whether `onOrderCreated` ran. */
  datatype Submission = Submission(form: Form, body: seq<Entry>, notified: bool)

  /**
   * `handleSubmit` given whether the `POST /orders/` succeeded: success
   * resets the form to one blank draft and notifies the parent (when it
   * passed a callback); failure keeps the drafts and shows the error.
   */
  function Submit(f: Form, created: bool, hasCallback: bool): (r: Submission)
    ensures r.body == Serialize(f.items)
    ensures !r.form.loading
    ensures created ==> r.form == Initial && r.notified == hasCallback
    ensures !created ==> r.form.items == f.items && r.form.error == CreateFailed && !r.notified
  {
    var body := Serialize(f.items);
    if created then Submission(Initial, body, hasCallback)
    else Submission(Form(f.items, false, CreateFailed), body, false)
  }
}

=== FILE: dashboard.dfy ===
/**
 * The staff dashboard: the three fetches on mount, and the figures derived
 * from the fetched orders and customers (sales, average, monthly buckets,
 * status counts, the five busiest customers and the recent orders).
 */
module Dashboard {
  import opened Basics
  import opened OrderRows
  import opened Seqs
  import OrderModels

  /** A user record of `users/customers/` or `users/staff/`. */
  datatype Customer = Customer(id: int, username: string, email: string)

  datatype Page = Page(orders: seq<Row>, customers: seq<Customer>, staff: seq<Customer>, loading: bool)

  predicate AnyFailed(fo: Fetch<Row>, fc: Fetch<Customer>, fs: Fetch<Customer>) {
    fo.Failed? || fc.Failed? || fs.Failed?
  }

  /**
   * The effect on mount: the three requests run one after another inside one
   * `try`; a throw anywhere empties all three lists, a non-array answer
   * empties its own list, and `loading` is cleared either way.
   */
  function Load(fo: Fetch<Row>, fc: Fetch<Customer>, fs: Fetch<Customer>): (r: Page)
    ensures !r.loading
    ensures AnyFailed(fo, fc, fs) ==> r.orders == [] && r.customers == [] && r.staff == []
    ensures !AnyFailed(fo, fc, fs) ==>
              && (r.orders == if fo.Array? then fo.items else [])
              && (r.customers == if fc.Array? then fc.items else [])
              && (r.staff == if fs.Array? then fs.items else [])
  {
    if AnyFailed(fo, fc, fs) then Page([], [], [], false)
    else Page(Coerce(fo), Coerce(fc), Coerce(fs), false)
  }

  // ---------------------------------------------------------------------------
  // Sales and average
  // ---------------------------------------------------------------------------

  /** `avgOrderValue`: the literal 0 without completed orders, otherwise the quotient of the sales by their count. */
  datatype Average = Zero | Mean(total: int, count: nat)

  function AverageOf(orders: seq<Row>): (r: Average)
    ensures r.Zero? <==> Count(orders, StatusIs(CompletedStatus)) == 0
    ensures r.Mean? ==> r.count == Count(orders, StatusIs(CompletedStatus)) > 0
    ensures r.Mean? ==> r.total == Sum(orders, When(StatusIs(CompletedStatus), Amount))
  {
    var completed := Completed(orders);
    FilterLength(orders, StatusIs(CompletedStatus));
    SalesOfCompleted(orders);
    if |completed| == 0 then Zero else Mean(Sales(completed), |completed|)
  }

  // ---------------------------------------------------------------------------
  // Monthly sales
  // ---------------------------------------------------------------------------

  /** `{ month, total }`, one per month key of the accumulator object. */
  datatype Bucket = Bucket(month: Month, total: int)

  function Total(b: Bucket): int {
    b.total
  }

  /** The month keys of the buckets. */
  function Months(bs: seq<Bucket>): (r: set<Month>)
    ensures forall i :: 0 <= i < |bs| ==> bs[i].month in r
  {
    if |bs| == 0 then {} else {bs[0].month} + Months(bs[1..])
  }

  lemma {:induction false} MonthsWitness(bs: seq<Bucket>, m: Month)
    requires m in Months(bs)
    ensures exists i :: 0 <= i < |bs| && bs[i].month == m
  {
    if bs[0].month != m {
      MonthsWitness(bs[1..], m);
      var i :| 0 <= i < |bs[1..]| && bs[1..][i].month == m;
      assert bs[i + 1].month == m;
    }
  }

  /** The months of the rows. */
  function RowMonths(rows: seq<Row>): (r: set<Month>)
    ensures forall j :: 0 <= j < |rows| ==> rows[j].month in r
  {
    if |rows| == 0 then {}
    else
      var init := rows[..|rows| - 1];
      assert forall j :: 0 <= j < |init| ==> init[j] == rows[j];
      RowMonths(init) + {rows[|rows| - 1].month}
  }

  lemma {:induction false} RowMonthsWitness(rows: seq<Row>, m: Month)
    requires m in RowMonths(rows)
    ensures exists j :: 0 <= j < |rows| && rows[j].month == m
  {
    var n := |rows|;
    if rows[n - 1].month != m {
      RowMonthsWitness(rows[..n - 1], m);
      var j :| 0 <= j < n - 1 && rows[..n - 1][j].month == m;
      assert rows[j].month == m;
    }
  }

  /** The keys of an object are distinct. */
  predicate DistinctMonths(bs: seq<Bucket>) {
    forall i, j :: 0 <= i < j < |bs| ==> bs[i].month != bs[j].month
  }

  function InMonth(m: Month): Row -> bool {
    (r: Row) => r.month == m
  }

  /**
   * One step of the reduce: the bucket of the row's month grows by the row's
   * amount, or a new bucket is appended when the month is new (object keys
   * keep their insertion order).
   */
  function AddTo(bs: seq<Bucket>, r: Row): (res: seq<Bucket>)
    requires DistinctMonths(bs)
    ensures DistinctMonths(res)
    ensures Months(res) == Months(bs) + {r.month}
    ensures |res| == if r.month in Months(bs) then |bs| else |bs| + 1
    ensures forall i :: 0 <= i < |bs| ==>
              res[i].month == bs[i].month
              && res[i].total == bs[i].total + (if bs[i].month == r.month then Amount(r) else 0)
    ensures r.month !in Months(bs) ==> res[|bs|] == Bucket(r.month, Amount(r))
  {
    if |bs| == 0 then [Bucket(r.month, Amount(r))]
    else if bs[0].month == r.month then
      var res := [bs[0].(total := bs[0].total + Amount(r))] + bs[1..];
      AddToHit(bs, r);
      res
    else
      var rest := AddTo(bs[1..], r);
      AddToMiss(bs, r, rest);
      [bs[0]] + rest
  }

  /** What `AddTo` promises of its result `res`, as one predicate for the two step lemmas below. */
  predicate AddedTo(bs: seq<Bucket>, r: Row, res: seq<Bucket>) {
    && DistinctMonths(res)
    && Months(res) == Months(bs) + {r.month}
    && |res| == (if r.month in Months(bs) then |bs| else |bs| + 1)
    && (forall i :: 0 <= i < |bs| ==>
          res[i].month == bs[i].month
          && res[i].total == bs[i].total + (if bs[i].month == r.month then Amount(r) else 0))
    && (r.month !in Months(bs) ==> res[|bs|] == Bucket(r.month, Amount(r)))
  }

  /** The row's month is the first bucket's: that bucket grows, the rest stay. */
  lemma AddToHit(bs: seq<Bucket>, r: Row)
    requires |bs| > 0 && DistinctMonths(bs) && bs[0].month == r.month
    ensures AddedTo(bs, r, [bs[0].(total := bs[0].total + Amount(r))] + bs[1..])
  {
    var b := bs[0].(total := bs[0].total + Amount(r));
    var res := [b] + bs[1..];
    ConsBucket(bs[0], bs[1..]);
    assert bs == [bs[0]] + bs[1..];
    HeadNotInTail(bs);
    ConsBucket(b, bs[1..]);
    forall i | 0 <= i < |bs|
      ensures res[i].month == bs[i].month
      ensures res[i].total == bs[i].total + (if bs[i].month == r.month then Amount(r) else 0)
    {
      if i > 0 {
        assert res[i] == bs[i];
        assert bs[i].month != bs[0].month;
      }
    }
  }

  /** The row's month is not the first bucket's: the first bucket stays and the step goes on in the rest. */
  lemma AddToMiss(bs: seq<Bucket>, r: Row, rest: seq<Bucket>)
    requires |bs| > 0 && DistinctMonths(bs) && bs[0].month != r.month
    requires AddedTo(bs[1..], r, rest)
    ensures AddedTo(bs, r, [bs[0]] + rest)
  {
    var res := [bs[0]] + rest;
    ConsBucket(bs[0], bs[1..]);
    assert bs == [bs[0]] + bs[1..];
    HeadNotInTail(bs);
    ConsBucket(bs[0], rest);
    forall i | 0 <= i < |bs|
      ensures res[i].month == bs[i].month
      ensures res[i].total == bs[i].total + (if bs[i].month == r.month then Amount(r) else 0)
    {
      if i > 0 {
        assert res[i] == rest[i - 1];
        assert bs[i] == bs[1..][i - 1];
      }
    }
    if r.month !in Months(bs) {
      assert res[|bs|] == rest[|bs| - 1];
    }
  }

  /** The months of a cons, and when it keeps its months distinct. */
  lemma ConsBucket(b: Bucket, rest: seq<Bucket>)
    ensures Months([b] + rest) == {b.month} + Months(rest)
    ensures DistinctMonths(rest) && b.month !in Months(rest) ==> DistinctMonths([b] + rest)
  {
    var s := [b] + rest;
    assert s[1..] == rest;
  }

  /** In buckets with distinct months, the first month does not recur. */
  lemma HeadNotInTail(bs: seq<Bucket>)
    requires |bs| > 0 && DistinctMonths(bs)
    ensures bs[0].month !in Months(bs[1..])
  {
    forall i | 0 <= i < |bs[1..]|
      ensures bs[1..][i].month != bs[0].month
    {
      assert bs[1..][i] == bs[i + 1];
    }
    if bs[0].month in Months(bs[1..]) {
      MonthsWitness(bs[1..], bs[0].month);
      assert false;
    }
  }

  /** The step of `SalesByMonth` keeps every bucket total equal to the sales of its month. */
  lemma StepTotals(init: seq<Row>, last: Row, prev: seq<Bucket>, bs: seq<Bucket>)
    requires DistinctMonths(prev)
    requires Months(prev) == RowMonths(init)
    requires forall i :: 0 <= i < |prev| ==> prev[i].total == Sum(init, When(InMonth(prev[i].month), Amount))
    requires bs == AddTo(prev, last)
    ensures forall i :: 0 <= i < |bs| ==> bs[i].total == Sum(init + [last], When(InMonth(bs[i].month), Amount))
  {
    forall i | 0 <= i < |bs|
      ensures bs[i].total == Sum(init + [last], When(InMonth(bs[i].month), Amount))
    {
      var m := bs[i].month;
      SumConcat(init, [last], When(InMonth(m), Amount));
      if i >= |prev| {
        assert m == last.month && m !in RowMonths(init);
        SumWhenNone(init, InMonth(m), Amount);
      }
    }
  }

  /** `salesByMonth` over the given rows (the page passes the completed orders). */
  function SalesByMonth(rows: seq<Row>): (bs: seq<Bucket>)
    ensures DistinctMonths(bs)
    ensures Months(bs) == RowMonths(rows)
    ensures forall i :: 0 <= i < |bs| ==> bs[i].total == Sum(rows, When(InMonth(bs[i].month), Amount))
  {
    if |rows| == 0 then []
    else
      var init, last := rows[..|rows| - 1], rows[|rows| - 1];
      var prev := SalesByMonth(init);
      var bs := AddTo(prev, last);
      InitLast(rows);
      StepTotals(init, last, prev, bs);
      bs
  }

  /** Adding a row to the buckets adds its amount to their grand total. */
  lemma {:induction false} AddToSum(bs: seq<Bucket>, r: Row)
    requires DistinctMonths(bs)
    ensures Sum(AddTo(bs, r), Total) == Sum(bs, Total) + Amount(r)
  {
    if |bs| > 0 && bs[0].month != r.month {
      AddToSum(bs[1..], r);
    }
  }

  /** The monthly buckets split the sales: their totals add up to the sales of the rows. */
  lemma {:induction false} BucketsSumToSales(rows: seq<Row>)
    ensures Sum(SalesByMonth(rows), Total) == Sales(rows)
  {
    if |rows| > 0 {
      var init, last := rows[..|rows| - 1], rows[|rows| - 1];
      var prev := SalesByMonth(init);
      BucketsSumToSales(init);
      InitLast(rows);
      assert SalesByMonth(rows) == AddTo(prev, last);
      AddToSum(prev, last);
      SumConcat(init, [last], Amount);
      assert Sum([last], Amount) == Amount(last);
    }
  }

  /** On the page's rows, every completed order has a bucket for its month, and only one (the months are distinct). */
  lemma EveryCompletedHasOneBucket(orders: seq<Row>, j: nat)
    requires j < |orders| && orders[j].status == CompletedStatus
    ensures DistinctMonths(SalesByMonth(Completed(orders)))
    ensures exists i :: 0 <= i < |SalesByMonth(Completed(orders))|
                        && SalesByMonth(Completed(orders))[i].month == orders[j].month
  {
    var completed := Completed(orders);
    var k :| 0 <= k < |completed| && completed[k] == orders[j];
    MonthsWitness(SalesByMonth(completed), orders[j].month);
  }

  /** Every bucket comes from some completed order of that month. */
  lemma EveryBucketFromCompleted(orders: seq<Row>, i: nat)
    requires i < |SalesByMonth(Completed(orders))|
    ensures exists j :: 0 <= j < |orders| && orders[j].status == CompletedStatus
                        && orders[j].month == SalesByMonth(Completed(orders))[i].month
  {
    var completed := Completed(orders);
    var m := SalesByMonth(completed)[i].month;
    RowMonthsWitness(completed, m);
    var k :| 0 <= k < |completed| && completed[k].month == m;
    var j :| 0 <= j < |orders| && orders[j] == completed[k];
  }

  /** The monthly chart adds up to the total-sales card. */
  lemma MonthlyAddsUpToTotal(orders: seq<Row>)
    ensures Sum(SalesByMonth(Completed(orders)), Total) == Sum(orders, When(StatusIs(CompletedStatus), Amount))
  {
    BucketsSumToSales(Completed(orders));
    SalesOfCompleted(orders);
  }

  // ---------------------------------------------------------------------------
  // Status counts
  // ---------------------------------------------------------------------------

  /** The four slices of the status pie chart. */
  datatype StatusCounts = StatusCounts(pending: nat, completed: nat, cancelled: nat, rejected: nat)

  const PendingStatus: string := "PENDING"
  const CancelledStatus: string := "CANCELLED"
  const RejectedStatus: string := "REJECTED"

  function StatusData(orders: seq<Row>): (r: StatusCounts)
    ensures r.completed == |Completed(orders)|
    ensures r.pending == Count(orders, StatusIs(PendingStatus))
    ensures r.cancelled == Count(orders, StatusIs(CancelledStatus))
    ensures r.rejected == Count(orders, StatusIs(RejectedStatus))
    ensures r.pending + r.completed + r.cancelled + r.rejected <= |orders|
  {
    var p, co, ca, re := StatusIs(PendingStatus), StatusIs(CompletedStatus), StatusIs(CancelledStatus), StatusIs(RejectedStatus);
    FilterLength(orders, co);
    ExclusiveCounts(orders, p, co);
    ExclusiveCounts(orders, Either(p, co), ca);
    ExclusiveCounts(orders, Either(Either(p, co), ca), re);
    CountAtMostLength(orders, Either(Either(Either(p, co), ca), re));
    StatusCounts(Count(orders, p), |Completed(orders)|, Count(orders, ca), Count(orders, re))
  }

  /** "PENDING" is not among the statuses an order can hold, so that slice is empty for stored orders. */
  lemma PendingSliceEmpty(orders: seq<Row>)
    requires forall i :: 0 <= i < |orders| ==> orders[i].status in OrderModels.StatusChoices
    ensures StatusData(orders).pending == 0
  {
    CountNone(orders, StatusIs(PendingStatus));
  }

  // ---------------------------------------------------------------------------
  // Top customers
  // ---------------------------------------------------------------------------

  /** `{ name, orders }` for one customer. */
  datatype Entry = Entry(name: string, orders: nat)

  function OrdersOf(e: Entry): int {
    e.orders
  }

  const TopCount: nat := 5

  /** `o.customer?.id === c.id`: only a nested customer object has an `id`. */
  function PlacedBy(c: Customer): Row -> bool {
    (r: Row) => r.customer.CustomerObj? && r.customer.id == c.id
  }

  /** `c.username || c.email`. */
  function Name(c: Customer): string {
    if c.username != "" then c.username else c.email
  }

  function EntryFor(c: Customer, orders: seq<Row>): Entry {
    Entry(Name(c), Count(orders, PlacedBy(c)))
  }

  function Tally(customers: seq<Customer>, orders: seq<Row>): (r: seq<Entry>)
    ensures |r| == |customers|
    ensures forall i :: 0 <= i < |r| ==> r[i] == EntryFor(customers[i], orders)
  {
    seq(|customers|, i requires 0 <= i < |customers| => EntryFor(customers[i], orders))
  }

  /**
   * `ordersPerCustomer`: every customer's order count, sorted by
   * non-increasing count, cut to the first five. Each customer's entry
   * appears at most as often as the customer is listed.
   */
  function TopCustomers(customers: seq<Customer>, orders: seq<Row>): (r: seq<Entry>)
    ensures |r| == Min(TopCount, |customers|)
    ensures SortedDesc(r, OrdersOf)
    ensures forall i :: 0 <= i < |r| ==>
              exists j :: 0 <= j < |customers| && r[i] == EntryFor(customers[j], orders)
    ensures multiset(r) <= multiset(Tally(customers, orders))
  {
    var tally := Tally(customers, orders);
    var sorted := SortDesc(tally, OrdersOf);
    var m := Min(TopCount, |sorted|);
    var r := sorted[..m];
    PrefixSorted(sorted, m, OrdersOf);
    PrefixSubMultiset(sorted, m);
    forall i | 0 <= i < |r|
      ensures exists j :: 0 <= j < |customers| && r[i] == EntryFor(customers[j], orders)
    {
      assert r[i] == sorted[i];
      PermutationWitness(sorted, tally, i);
      var j :| 0 <= j < |tally| && tally[j] == sorted[i];
      assert tally[j] == EntryFor(customers[j], orders);
    }
    r
  }

  /** A customer left off the list has no more orders than any customer on it. */
  lemma TopCustomersDominate(customers: seq<Customer>, orders: seq<Row>, j: nat)
    requires j < |customers|
    requires EntryFor(customers[j], orders) !in TopCustomers(customers, orders)
    ensures forall i :: 0 <= i < |TopCustomers(customers, orders)| ==>
              TopCustomers(customers, orders)[i].orders >= Count(orders, PlacedBy(customers[j]))
  {
    var tally := Tally(customers, orders);
    var sorted := SortDesc(tally, OrdersOf);
    var r := TopCustomers(customers, orders);
    var e := EntryFor(customers[j], orders);
    assert tally[j] == e;
    assert e in multiset(tally);
    assert e in multiset(sorted);
    var k :| 0 <= k < |sorted| && sorted[k] == e;
    assert r == sorted[..|r|];
    assert k >= |r|;
    forall i | 0 <= i < |r|
      ensures r[i].orders >= e.orders
    {
      assert r[i] == sorted[i];
      assert OrdersOf(sorted[i]) >= OrdersOf(sorted[k]);
    }
  }

  /**
   * When the orders carry the customer as a bare key (as the order
   * serializer sends it), no order matches any customer and every count is 0.
   */
  lemma BareKeysCountNothing(customers: seq<Customer>, orders: seq<Row>)
    requires forall i :: 0 <= i < |orders| ==> !orders[i].customer.CustomerObj?
    ensures forall i :: 0 <= i < |TopCustomers(customers, orders)| ==> TopCustomers(customers, orders)[i].orders == 0
  {
    forall c: Customer {
      CountNone(orders, PlacedBy(c));
    }
  }

  // ---------------------------------------------------------------------------
  // Recent orders
  // ---------------------------------------------------------------------------

  const RecentCount: nat := 10

  /** `orders.slice(0, 10)`. */
  function Recent(orders: seq<Row>): (r: seq<Row>)
    ensures |r| == Min(RecentCount, |orders|)
    ensures r <= orders
  {
    orders[..Min(RecentCount, |orders|)]
  }
}

=== FILE: json.dfy ===
/**
 * JavaScript values as the client code manipulates them: plain objects are
 * maps from property names to values, `undefined` is a value of its own (the
 * value of a missing property), and arrays, files and other objects that the
 * code only passes along are opaque references told apart by a tag.
 */
module Json {

  datatype Value =
    | Undefined
    | Null
    | Bool(b: bool)
    | Num(n: int)
    | Str(s: string)
    | Opaque(tag: string)

  /** A plain JavaScript object: its own enumerable properties. */
  type Object = map<string, Value>

  /** Property read `o.key`: a missing property reads as `undefined`. */
  function Get(o: Object, key: string): Value {
    if key in o then o[key] else Undefined
  }

  /** JavaScript truthiness (`if (v)`, `!!v`). */
  predicate Truthy(v: Value) {
    match v
    case Undefined => false
    case Null => false
    case Bool(b) => b
    case Num(n) => n != 0
    case Str(s) => s != ""
    case Opaque(_) => true
  }

  /** `a || b`: the left operand when it is truthy, otherwise the right one. */
  function Or(a: Value, b: Value): (r: Value)
    ensures Truthy(a) ==> r == a
    ensures !Truthy(a) ==> r == b
  {
    if Truthy(a) then a else b
  }

  /** Object spread `{...a, ...b}`: every property of `b` overrides the one of `a`. */
  function Spread(a: Object, b: Object): (r: Object)
    ensures r.Keys == a.Keys + b.Keys
    ensures forall k :: k in b ==> Get(r, k) == b[k]
    ensures forall k :: k !in b ==> Get(r, k) == Get(a, k)
  {
    a + b
  }
}

=== FILE: navbar.dfy ===
/**
 * The navigation bar: which links it renders, where the "Repair Orders"
 * button leads, and which authentication buttons it shows, all read off the
 * session.
 */
module Navbar {
  import opened Basics
  import opened Json
  import opened Auth

  /** A router link to a path, or a button running the orders click handler. */
  datatype Link = To(name: string, path: string) | OrdersButton(name: string)

  const StaffLinks: seq<Link> := [To("Home", "/"), To("Dashboard", "/dashboard"), To("Staff Orders", "/staff/orders"), To("Reports", "/reports")]
  const CustomerLinks: seq<Link> := [To("Home", "/"), OrdersButton("Repair Orders")]

  const LoginRoute: string := "/login"
  const StaffOrdersRoute: string := "/staff/orders"
  const OrdersRoute: string := "/orders"

  /** `user?.is_staff`, read for truthiness. */
  predicate IsStaff(s: Session) {
    s.user.Some? && Truthy(Get(s.user.value, "is_staff"))
  }

  /** `linksToRender`. */
  function LinksToRender(s: Session): (r: seq<Link>)
    ensures r == StaffLinks <==> IsAuthenticated(s) && IsStaff(s)
    ensures r == CustomerLinks <==> !(IsAuthenticated(s) && IsStaff(s))
  {
    if IsAuthenticated(s) && IsStaff(s) then StaffLinks else CustomerLinks
  }

  /**
   * `handleOrdersClick`: where it navigates. Reading `user.role` with an
   * authenticated session but no user throws: that case yields `None`.
   */
  function OrdersClick(s: Session): (r: Option<string>)
    ensures !IsAuthenticated(s) ==> r == Some(LoginRoute)
    ensures IsAuthenticated(s) && s.user.None? ==> r.None?
    ensures IsAuthenticated(s) && s.user.Some? ==>
              r == Some(if Get(s.user.value, "role") == Str("staff") then StaffOrdersRoute else OrdersRoute)
  {
    if !IsAuthenticated(s) then Some(LoginRoute)
    else if s.user.None? then None
    else if Get(s.user.value, "role") == Str("staff") then Some(StaffOrdersRoute)
    else Some(OrdersRoute)
  }

  /** The right-hand buttons: Logout, or Login and Register. */
  datatype AuthButtons = LogoutButton | LoginAndRegister

  function Buttons(s: Session): (r: AuthButtons)
    ensures r == LogoutButton <==> IsAuthenticated(s)
    ensures r == LoginAndRegister <==> !IsAuthenticated(s)
  {
    if IsAuthenticated(s) then LogoutButton else LoginAndRegister
  }

  /** The orders button is a customer link only: a rendered staff bar never offers it. */
  lemma OrdersButtonOnlyForCustomers(s: Session)
    ensures (exists i :: 0 <= i < |LinksToRender(s)| && LinksToRender(s)[i].OrdersButton?)
            <==> !(IsAuthenticated(s) && IsStaff(s))
  {
    if IsAuthenticated(s) && IsStaff(s) {
      assert forall i :: 0 <= i < |StaffLinks| ==> StaffLinks[i].To?;
    } else {
      assert LinksToRender(s) == CustomerLinks;
      assert LinksToRender(s)[1].OrdersButton?;
    }
  }

  /**
   * When the role was derived from `is_staff` (as registration does it), the
   * orders button, which only the customer bar offers, always leads an
   * authenticated user to the customer orders page.
   */
  lemma DerivedRoleRoutesCustomers(s: Session)
    requires IsAuthenticated(s) && s.user.Some?
    requires Get(s.user.value, "role") == Str(if Truthy(Get(s.user.value, "is_staff")) then "staff" else "customer")
    requires LinksToRender(s) == CustomerLinks
    ensures OrdersClick(s) == Some(OrdersRoute)
  {
    assert !IsStaff(s);
    assert "customer" != "staff" by {
      assert |"customer"| != |"staff"|;
    }
  }
}

=== FILE: order_models.dfy ===
/**
 * The backend's order records: an order with its status, total and items, and
 * the pricing rules that keep the total equal to the sum of the item totals.
 * Decimal prices are integer paisa (hundredths of a rupee).
 */
module OrderModels {
  import opened Basics
  import Seqs

  /** The codes of `Order.STATUS_CHOICES`. */
  const StatusChoices: set<string> := {"ON_GOING", "COMPLETED", "CANCELLED", "REJECTED"}

  /** The codes of `OrderItem.APPLIANCE_CHOICES`. */
  const ApplianceChoices: set<string> := {"refrigerator", "washing_machine", "ac", "tv", "other"}

  const DefaultStatus: string := "ON_GOING"

  datatype Item = Item(orderName: string, details: string, quantity: nat, price: int, image: Option<string>)

  /** An order; `customer` is the owning user's id, timestamps are abstract instants. */
  datatype Order = Order(id: nat, customer: nat, status: string, totalPrice: int,
                         createdAt: int, updatedAt: int, items: seq<Item>)

  /** The constraints the model fields declare: status and appliance drawn from their choices. */
  predicate WellFormed(o: Order) {
    && o.status in StatusChoices
    && forall i :: 0 <= i < |o.items| ==> o.items[i].orderName in ApplianceChoices
  }

  /**
   * `OrderItem.get_total_price`: quantity times unit price. It is 0 exactly
   * when one of them is, it has the price's sign, and a line of one or more
   * pieces costs at least one piece.
   */
  function ItemTotal(it: Item): (r: int)
    ensures r == 0 <==> it.quantity == 0 || it.price == 0
    ensures it.price >= 0 ==> r >= 0
    ensures it.price <= 0 ==> r <= 0
    ensures it.quantity >= 1 && it.price >= 0 ==> r >= it.price
  {
    it.quantity * it.price
  }

  /** The sum of the item totals (0 for no items). */
  function ItemsTotal(items: seq<Item>): int {
    Seqs.Sum(items, ItemTotal)
  }

  /** The order's total agrees with its items. */
  predicate Priced(o: Order) {
    o.totalPrice == ItemsTotal(o.items)
  }

  /** A new order as the field defaults make it: on going, total 0. */
  function NewOrder(id: nat, customer: nat, now: int): (o: Order)
    ensures o.status == "ON_GOING" && o.totalPrice == 0 && o.items == []
    ensures WellFormed(o) && Priced(o)
  {
    Order(id, customer, DefaultStatus, 0, now, now, [])
  }

  /** A new item as the field defaults make it: quantity 1, price 0, no details, no image. */
  function NewItem(orderName: string): (it: Item)
    ensures it.quantity == 1 && it.price == 0 && it.details == "" && it.image.None?
    ensures ItemTotal(it) == 0
  {
    Item(orderName, "", 1, 0, None)
  }

  /** `Order.update_total_price`: the total becomes the sum of the item totals; nothing else changes. */
  function UpdateTotalPrice(o: Order): (r: Order)
    ensures Priced(r)
    ensures r.(totalPrice := o.totalPrice) == o
    ensures o.items == [] ==> r.totalPrice == 0
  {
    o.(totalPrice := ItemsTotal(o.items))
  }

  /** `OrderItem.delete`: the item goes and the order total is recomputed over the remaining items. */
  function DeleteItem(o: Order, k: nat): (r: Order)
    requires k < |o.items|
    ensures Priced(r)
    ensures r.items == o.items[..k] + o.items[k + 1..]
    ensures Priced(o) ==> r.totalPrice == o.totalPrice - ItemTotal(o.items[k])
  {
    var rest := o.items[..k] + o.items[k + 1..];
    assert o.items == o.items[..k] + [o.items[k]] + o.items[k + 1..];
    Seqs.SumConcat(o.items[..k] + [o.items[k]], o.items[k + 1..], ItemTotal);
    Seqs.SumConcat(o.items[..k], [o.items[k]], ItemTotal);
    Seqs.SumConcat(o.items[..k], o.items[k + 1..], ItemTotal);
    UpdateTotalPrice(o.(items := rest))
  }

  /** Non-negative prices give a non-negative total. */
  lemma {:induction false} ItemsTotalNonNegative(items: seq<Item>)
    requires forall i :: 0 <= i < |items| ==> items[i].price >= 0
    ensures ItemsTotal(items) >= 0
  {
    if |items| > 0 {
      ItemsTotalNonNegative(items[1..]);
    }
  }
}

=== FILE: order_rows.dfy ===
/**
 * Orders as the dashboard, report and order pages read them from `GET /orders/`:
 * only the fields those pages look at, with the price in integer minor units
 * and the creation date already reduced to its calendar month.
 */
module OrderRows {
  import opened Basics
  import Seqs

  /** `${date.getFullYear()}-${month}` of the creation date. */
  datatype Month = Month(year: int, month: int)

  /** `order.customer`: absent, a bare primary key, or a nested user object. */
  datatype CustomerRef = NoCustomer | CustomerPk(pk: int) | CustomerObj(id: int, username: string)

  /** `total_price` is `None` when the field is missing or null. */
  datatype Row = Row(id: int, status: string, totalPrice: Option<int>, customer: CustomerRef, month: Month)

  /** The result of an awaited `GET`: it threw, it answered with something that is not an array, or with an array. */
  datatype Fetch<T> = Failed | NonArray | Array(items: seq<T>)

  /** `Array.isArray(res.data) ? res.data : []`, with a thrown request also giving `[]`. */
  function Coerce<T>(f: Fetch<T>): (r: seq<T>)
    ensures f.Array? ==> r == f.items
    ensures !f.Array? ==> r == []
  {
    if f.Array? then f.items else []
  }

  function StatusIs(s: string): Row -> bool {
    (r: Row) => r.status == s
  }

  const CompletedStatus: string := "COMPLETED"

  /** `orders.filter((o) => o.status === "COMPLETED")`. */
  function Completed(rows: seq<Row>): (r: seq<Row>)
    ensures |r| <= |rows|
    ensures forall i :: 0 <= i < |r| ==> r[i].status == CompletedStatus && r[i] in rows
    ensures forall i :: 0 <= i < |rows| && rows[i].status == CompletedStatus ==> rows[i] in r
  {
    Seqs.Filter(rows, StatusIs(CompletedStatus))
  }

  /** `Number(order.total_price || 0)`: a missing price counts as 0. */
  function Amount(r: Row): int {
    r.totalPrice.GetOr(0)
  }

  /** `rows.reduce((acc, order) => acc + Number(order.total_price || 0), 0)`. */
  function Sales(rows: seq<Row>): int {
    Seqs.Sum(rows, Amount)
  }

  /** The completed rows of a concatenation are those of each part, in order. */
  lemma CompletedConcat(a: seq<Row>, b: seq<Row>)
    ensures Completed(a + b) == Completed(a) + Completed(b)
  {
    Seqs.FilterConcat(a, b, StatusIs(CompletedStatus));
  }

  /** The sales are the amounts of the rows that are completed, over the whole list. */
  lemma SalesOfCompleted(rows: seq<Row>)
    ensures Sales(Completed(rows)) == Seqs.Sum(rows, Seqs.When(StatusIs(CompletedStatus), Amount))
  {
    Seqs.SumFilter(rows, StatusIs(CompletedStatus), Amount);
  }
}

=== FILE: order_views.dfy ===
/**
 * The order endpoints of the backend: per-user visibility, creation, update,
 * deletion, the `cancel` action and the staff `reports` action. The store is
 * the table of all orders; the requester is the authenticated user. The
 * serializer's part is kept to what these endpoints depend on: `total_price`
 * and `customer` are read-only, `items` is read-only, and `status` must be one
 * of the model's choices.
 */
module OrderViews {
  import opened Basics
  import Seqs
  import opened OrderModels

  datatype Requester = Requester(id: nat, isStaff: bool)

  /** The fields a client may send for an order. */
  datatype Payload = Payload(status: Option<string>, totalPrice: Option<int>, customer: Option<nat>)

  const HttpOk: int := 200
  const HttpCreated: int := 201
  const HttpNoContent: int := 204
  const HttpBadRequest: int := 400
  const HttpForbidden: int := 403
  const HttpNotFound: int := 404
  const HttpServerError: int := 500

  /** `Order.Status.COMPLETED` and `Order.Status.REJECTED`: the statuses that close an order. */
  predicate Closed(o: Order) {
    o.status == "COMPLETED" || o.status == "REJECTED"
  }

  function CreatedAt(o: Order): int {
    o.createdAt
  }

  /** Primary keys are unique in the table. */
  predicate UniqueIds(table: seq<Order>) {
    forall i, j :: 0 <= i < j < |table| ==> table[i].id != table[j].id
  }

  function OwnedBy(id: nat): Order -> bool {
    (o: Order) => o.customer == id
  }

  function HasId(pk: nat): Order -> bool {
    (o: Order) => o.id == pk
  }

  predicate Sees(user: Requester, o: Order) {
    user.isStaff || o.customer == user.id
  }

  /**
   * `get_queryset`: every order newest first; a non-staff user sees only the
   * orders whose customer is that user.
   */
  function Queryset(user: Requester, table: seq<Order>): (r: seq<Order>)
    ensures Seqs.SortedDesc(r, CreatedAt)
    ensures forall o :: o in r <==> o in table && Sees(user, o)
    ensures user.isStaff ==> multiset(r) == multiset(table)
  {
    var ordered := Seqs.SortDesc(table, CreatedAt);
    assert forall o :: o in ordered <==> o in multiset(ordered);
    if user.isStaff then ordered
    else
      var mine := Seqs.Filter(ordered, OwnedBy(user.id));
      Seqs.FilterSorted(ordered, OwnedBy(user.id), CreatedAt);
      mine
  }

  /** `get_object`: the order with the given id among those the user sees, or 404. */
  function GetObject(user: Requester, table: seq<Order>, pk: nat): (r: Result<Order, int>)
    ensures r.Ok? ==> r.value in table && r.value.id == pk && Sees(user, r.value)
    ensures r.Err? ==> r.error == HttpNotFound
                       && forall o :: o in table && o.id == pk ==> !Sees(user, o)
  {
    var hits := Seqs.Filter(Queryset(user, table), HasId(pk));
    if |hits| > 0 then Ok(hits[0]) else Err(HttpNotFound)
  }

  /** The serializer's status check: a given status must be one of the choices. */
  predicate ValidStatus(p: Payload) {
    p.status.None? || p.status.value in StatusChoices
  }

  /**
   * `perform_create`: the order belongs to the requester whatever customer the
   * client sent; the read-only total and items start at their defaults.
   */
  function PerformCreate(user: Requester, p: Payload, id: nat, now: int): (r: Result<Order, int>)
    ensures r.Ok? <==> ValidStatus(p)
    ensures r.Ok? ==> && r.value.customer == user.id
                      && r.value.totalPrice == 0 && r.value.items == []
                      && r.value.status == p.status.GetOr(DefaultStatus)
                      && WellFormed(r.value)
    ensures r.Err? ==> r.error == HttpBadRequest
  {
    if !ValidStatus(p) then Err(HttpBadRequest)
    else Ok(NewOrder(id, user.id, now).(status := p.status.GetOr(DefaultStatus)))
  }

  /**
   * `perform_update`: the writable status is saved, then the total is
   * recomputed from the items, so a client-supplied total is never kept.
   */
  function PerformUpdate(o: Order, p: Payload, now: int): (r: Result<Order, int>)
    ensures r.Ok? <==> ValidStatus(p)
    ensures r.Ok? ==> && Priced(r.value)
                      && r.value.items == o.items && r.value.customer == o.customer
                      && r.value.id == o.id && r.value.createdAt == o.createdAt
                      && r.value.status == p.status.GetOr(o.status)
    ensures r.Err? ==> r.error == HttpBadRequest
  {
    if !ValidStatus(p) then Err(HttpBadRequest)
    else Ok(UpdateTotalPrice(o.(status := p.status.GetOr(o.status), updatedAt := now)))
  }

  /** The table with the order of the given id replaced. */
  function Replace(table: seq<Order>, o: Order): (r: seq<Order>)
    ensures |r| == |table|
    ensures forall i :: 0 <= i < |r| ==> r[i] == (if table[i].id == o.id then o else table[i])
  {
    seq(|table|, i requires 0 <= i < |table| => if table[i].id == o.id then o else table[i])
  }

  /** The table without the order of the given id. */
  function Remove(table: seq<Order>, pk: nat): (r: seq<Order>)
    ensures |r| <= |table|
    ensures forall o :: o in r <==> o in table && o.id != pk
  {
    var rest := Seqs.Filter(table, (o: Order) => o.id != pk);
    forall o | o in table && o.id != pk
      ensures o in rest
    {
      var i :| 0 <= i < |table| && table[i] == o;
    }
    rest
  }

  /** What a destroy request ends in: the table and the HTTP status sent back. */
  datatype Deletion = Deletion(table: seq<Order>, code: int)

  /**
   * `destroy` as the framework runs it around `perform_destroy`: a closed
   * order is kept, but the 400 response that `perform_destroy` builds is
   * dropped and the client is told 204 either way.
   */
  function Destroy(user: Requester, table: seq<Order>, pk: nat): (r: Deletion)
    ensures r.code == HttpNotFound || r.code == HttpNoContent
    ensures GetObject(user, table, pk).Err? ==> r == Deletion(table, HttpNotFound)
    ensures GetObject(user, table, pk).Ok? ==> r.code == HttpNoContent
  {
    match GetObject(user, table, pk)
    case Err(code) => Deletion(table, code)
    case Ok(o) => if Closed(o) then Deletion(table, HttpNoContent) else Deletion(Remove(table, pk), HttpNoContent)
  }

  /** `destroy` with the refusal reaching the client as 400. */
  function DestroyFixed(user: Requester, table: seq<Order>, pk: nat): (r: Deletion)
    ensures (GetObject(user, table, pk).Ok? && Closed(GetObject(user, table, pk).value))
              ==> r == Deletion(table, HttpBadRequest)
    ensures (GetObject(user, table, pk).Ok? && !Closed(GetObject(user, table, pk).value))
              ==> r.code == HttpNoContent && forall o :: o in r.table <==> o in table && o.id != pk
    ensures GetObject(user, table, pk).Err? ==> r == Deletion(table, HttpNotFound)
  {
    match GetObject(user, table, pk)
    case Err(code) => Deletion(table, code)
    case Ok(o) =>
      if Closed(o) then Deletion(table, HttpBadRequest)
      else Deletion(Remove(table, pk), HttpNoContent)
  }

  /**
   * The body of `cancel` once the order is found: the ownership check, then
   * the transition. Saving an open order stamps `updated_at` with `now`; a
   * closed order is not saved.
   */
  function CancelOrder(user: Requester, o: Order, now: int): (r: (int, Order))
    ensures !user.isStaff && o.customer != user.id ==> r == (HttpForbidden, o)
    ensures Sees(user, o) ==> r.0 == HttpOk
    ensures Sees(user, o) && !Closed(o) ==> r.1 == o.(status := "REJECTED", updatedAt := now)
    ensures Closed(o) ==> r.1 == o
  {
    if !user.isStaff && o.customer != user.id then (HttpForbidden, o)
    else if !Closed(o) then (HttpOk, o.(status := "REJECTED", updatedAt := now))
    else (HttpOk, o)
  }

  /**
   * The `cancel` action: look the order up, run the body, store the result.
   * The answer is 200 exactly when the lookup finds the order, and otherwise
   * 404 with the table unchanged.
   */
  function Cancel(user: Requester, table: seq<Order>, pk: nat, now: int): (r: (int, seq<Order>))
    ensures r.0 == HttpOk <==> GetObject(user, table, pk).Ok?
    ensures r.0 != HttpOk ==> r == (HttpNotFound, table)
    ensures r.0 == HttpOk ==> |r.1| == |table|
                              && exists i :: 0 <= i < |table| && table[i].id == pk && Sees(user, table[i])
                                              && r.1[i] == CancelOrder(user, table[i], now).1
  {
    match GetObject(user, table, pk)
    case Err(code) => (code, table)
    case Ok(o) =>
      var (code, o') := CancelOrder(user, o, now);
      (code, if code == HttpOk then Replace(table, o') else table)
  }

  /**
   * `cancel` as the class is written: `Order` declares `STATUS_CHOICES` but no
   * `Status` class, so once the ownership check passes, reading
   * `Order.Status.COMPLETED` raises and the server answers 500 with nothing
   * saved. The rest of the model reads `Order.Status.X` as the string "X".
   */
  function CancelAsWritten(user: Requester, table: seq<Order>, pk: nat): (r: (int, seq<Order>))
    ensures r.1 == table
    ensures GetObject(user, table, pk).Err? ==> r.0 == GetObject(user, table, pk).error
    ensures GetObject(user, table, pk).Ok? && Sees(user, GetObject(user, table, pk).value) ==> r.0 == HttpServerError
  {
    match GetObject(user, table, pk)
    case Err(code) => (code, table)
    case Ok(o) => if !user.isStaff && o.customer != user.id then (HttpForbidden, table) else (HttpServerError, table)
  }

  /** `order.total_price or 0`: the total is never null in this model. */
  function TotalOf(o: Order): int {
    o.totalPrice
  }

  /** The counters of the `reports` action. */
  datatype Report = Report(total: nat, completed: nat, rejected: nat, pending: nat, revenue: int)

  function HasStatus(s: string): Order -> bool {
    (o: Order) => o.status == s
  }

  /**
   * `reports`: staff only; counts by status over all orders and the revenue of
   * the completed ones. Each count is the number of orders in that status,
   * and the revenue adds up the total of every COMPLETED order and nothing else.
   */
  function Reports(user: Requester, table: seq<Order>): (r: Result<Report, int>)
    ensures r.Err? <==> !user.isStaff
    ensures r.Err? ==> r.error == HttpForbidden
    ensures r.Ok? ==> && r.value.total == |table|
                      && r.value.completed == Seqs.Count(table, HasStatus("COMPLETED"))
                      && r.value.rejected == Seqs.Count(table, HasStatus("REJECTED"))
                      && r.value.pending == Seqs.Count(table, HasStatus("PENDING"))
                      && r.value.revenue == Seqs.Sum(table, Seqs.When(HasStatus("COMPLETED"), TotalOf))
                      && r.value.completed <= r.value.total
                      && r.value.rejected <= r.value.total
                      && r.value.pending <= r.value.total
                      && r.value.completed + r.value.rejected + r.value.pending <= r.value.total
  {
    if !user.isStaff then Err(HttpForbidden)
    else
      var completed := Seqs.Filter(table, HasStatus("COMPLETED"));
      Seqs.FilterLength(table, HasStatus("COMPLETED"));
      Seqs.FilterLength(table, HasStatus("REJECTED"));
      Seqs.FilterLength(table, HasStatus("PENDING"));
      Seqs.ExclusiveCounts(table, HasStatus("COMPLETED"), HasStatus("REJECTED"));
      var cr := Seqs.Either(HasStatus("COMPLETED"), HasStatus("REJECTED"));
      Seqs.ExclusiveCounts(table, cr, HasStatus("PENDING"));
      Seqs.CountAtMostLength(table, Seqs.Either(cr, HasStatus("PENDING")));
      Seqs.SumFilter(table, HasStatus("COMPLETED"), TotalOf);
      Ok(Report(|table|,
                |completed|,
                |Seqs.Filter(table, HasStatus("REJECTED"))|,
                |Seqs.Filter(table, HasStatus("PENDING"))|,
                Seqs.Sum(completed, TotalOf)))
  }
}

/** Properties of the order endpoints. */
module OrderViewsProperties {
  import opened Basics
  import Seqs
  import opened OrderModels
  import opened OrderViews

  /**
   * `cancel` never answers 403: the lookup already hides other users'
   * orders from a non-staff user, who gets 404 for them instead.
   */
  lemma CancelNeverForbidden(user: Requester, table: seq<Order>, pk: nat, now: int)
    ensures Cancel(user, table, pk, now).0 != HttpForbidden
    ensures Cancel(user, table, pk, now).0 == HttpNotFound ==> Cancel(user, table, pk, now).1 == table
  {
  }

  /** Cancelling twice is cancelling once: the second call, at any later time, saves nothing. */
  lemma CancelIdempotent(user: Requester, o: Order, now: int, later: int)
    ensures CancelOrder(user, CancelOrder(user, o, now).1, later) == CancelOrder(user, o, now)
  {
  }

  /**
   * A cancel changes at most the order it names, and of that order only the
   * status, to REJECTED, and the update time, to `now`.
   */
  lemma CancelTouchesOnlyTarget(user: Requester, table: seq<Order>, pk: nat, now: int)
    requires UniqueIds(table)
    ensures var t := Cancel(user, table, pk, now).1;
            && |t| == |table|
            && forall i :: 0 <= i < |t| ==>
                 t[i] == table[i] || (table[i].id == pk && t[i] == table[i].(status := "REJECTED", updatedAt := now))
  {
    match GetObject(user, table, pk)
    case Err(_) =>
    case Ok(o) =>
      var o' := CancelOrder(user, o, now).1;
      assert CancelOrder(user, o, now).0 == HttpOk;
      assert Cancel(user, table, pk, now).1 == Replace(table, o');
      var j :| 0 <= j < |table| && table[j] == o;
      ReplaceTouchesOnlyTarget(table, j, o');
  }

  /** Replacing the order at `j` (ids unique) by an order with the same id changes that slot and no other. */
  lemma ReplaceTouchesOnlyTarget(table: seq<Order>, j: nat, o': Order)
    requires UniqueIds(table) && j < |table|
    requires o'.id == table[j].id
    ensures var t := Replace(table, o');
            && |t| == |table|
            && t[j] == o'
            && forall i :: 0 <= i < |t| && i != j ==> t[i] == table[i]
  {
    var t := Replace(table, o');
    forall i | 0 <= i < |t| && i != j
      ensures t[i] == table[i]
    {
      assert table[i].id != table[j].id by {
        if i < j {
          assert table[i].id != table[j].id;
        } else {
          assert table[j].id != table[i].id;
        }
      }
    }
  }

  /** A closed order is never deleted, whether the client is told 204 or 400. */
  lemma ClosedOrdersSurvive(user: Requester, table: seq<Order>, pk: nat)
    requires GetObject(user, table, pk).Ok? && Closed(GetObject(user, table, pk).value)
    ensures Destroy(user, table, pk).table == table
    ensures DestroyFixed(user, table, pk).table == table
  {
  }

  /** As written, deleting a completed order answers 204 No Content although nothing was deleted. */
  lemma DestroyClosedAnswersNoContent()
    ensures var o := Order(1, 7, "COMPLETED", 0, 0, 0, []);
            Destroy(Requester(7, false), [o], 1) == Deletion([o], HttpNoContent)
  {
    var o := Order(1, 7, "COMPLETED", 0, 0, 0, []);
    var user := Requester(7, false);
    assert o in Queryset(user, [o]);
    assert Queryset(user, [o]) == [o];
    assert GetObject(user, [o], 1) == Ok(o);
  }

  /** As written, the owner's cancel of an order in progress fails with 500; read as intended it rejects the order. */
  lemma CancelAsWrittenFails()
    ensures var o := Order(1, 7, "ON_GOING", 0, 0, 0, []);
            && CancelAsWritten(Requester(7, false), [o], 1) == (HttpServerError, [o])
            && Cancel(Requester(7, false), [o], 1, 5) == (HttpOk, [o.(status := "REJECTED", updatedAt := 5)])
  {
    var o := Order(1, 7, "ON_GOING", 0, 0, 0, []);
    var user := Requester(7, false);
    assert o in Queryset(user, [o]);
    assert Queryset(user, [o]) == [o];
    assert GetObject(user, [o], 1) == Ok(o);
    assert Replace([o], o.(status := "REJECTED", updatedAt := 5)) == [o.(status := "REJECTED", updatedAt := 5)];
  }

  /** Orders in any other status are deleted, and only they. */
  lemma OpenOrdersAreDeleted(user: Requester, table: seq<Order>, pk: nat)
    requires GetObject(user, table, pk).Ok? && !Closed(GetObject(user, table, pk).value)
    ensures forall o :: o in Destroy(user, table, pk).table <==> o in table && o.id != pk
  {
    var rest := Remove(table, pk);
    forall o | o in table && o.id != pk
      ensures o in rest
    {
      var i :| 0 <= i < |table| && table[i] == o;
    }
  }

  /**
   * No stored order is "PENDING", which is not one of the status choices, so
   * the pending count of a report over well-formed orders is always 0.
   */
  lemma ReportsPendingZero(user: Requester, table: seq<Order>)
    requires user.isStaff
    requires forall i :: 0 <= i < |table| ==> WellFormed(table[i])
    ensures Reports(user, table).value.pending == 0
  {
    Seqs.CountNone(table, HasStatus("PENDING"));
  }
}

=== FILE: orders_page.dfy ===
/**
 * The customer's order list: loading and refetching the orders, the cancel
 * action, the shortened item descriptions and the price cell.
 */
module OrdersPage {
  import opened Basics
  import opened OrderRows
  import opened Text
  import OrderModels
  import OrderViews

  datatype Page = Page(orders: seq<Row>, loading: bool)

  /** The requests the page sends, in order. */
  datatype Call = PostCancel(id: int) | GetOrders

  /**
   * `fetchOrders` given the outcome of `GET /orders/` (`None` when it
   * threw): the answer replaces the list, a failure keeps the old one, and
   * `loading` is cleared either way.
   */
  function FetchOrders(p: Page, answer: Option<seq<Row>>): (r: Page)
    ensures !r.loading
    ensures answer.Some? ==> r.orders == answer.value
    ensures answer.None? ==> r.orders == p.orders
  {
    Page(if answer.Some? then answer.value else p.orders, false)
  }

  /** `handleCancel(id)`: post the cancel; only when it succeeds, fetch the list again. */
  function HandleCancel(p: Page, id: int, cancelled: bool, answer: Option<seq<Row>>): (r: (Page, seq<Call>))
    ensures cancelled ==> r.1 == [PostCancel(id), GetOrders] && r.0 == FetchOrders(p, answer)
    ensures !cancelled ==> r.1 == [PostCancel(id)] && r.0 == p
  {
    if cancelled then (FetchOrders(p, answer), [PostCancel(id), GetOrders]) else (p, [PostCancel(id)])
  }

  // ---------------------------------------------------------------------------
  // truncateDesc
  // ---------------------------------------------------------------------------

  const WordLimit: nat := 15
  const Ellipsis: string := "..."

  /** `desc.split(" ").slice(0, 15).join(" ") + (desc.split(" ").length > 15 ? "..." : "")`. */
  function Truncate(desc: string): (r: string)
    ensures |Split(desc, ' ')| <= WordLimit ==> r == desc
    ensures |Split(desc, ' ')| > WordLimit ==>
              && |r| >= |Ellipsis|
              && r[|r| - |Ellipsis|..] == Ellipsis
              && r[..|r| - |Ellipsis|] + [' '] <= desc
  {
    var ws := Split(desc, ' ');
    JoinSplit(desc, ' ');
    if |ws| <= WordLimit then
      assert ws[..|ws|] == ws;
      Join(ws[..|ws|], ' ')
    else
      var kept := Join(ws[..WordLimit], ' ');
      JoinPrefix(ws, WordLimit, ' ');
      var r := kept + Ellipsis;
      assert r[..|r| - |Ellipsis|] == kept;
      r
  }

  /** Past the limit, the text before the ellipsis holds exactly the first fifteen words. */
  lemma TruncateKeepsFirstWords(desc: string)
    requires |Split(desc, ' ')| > WordLimit
    ensures var r := Truncate(desc);
            Split(r[..|r| - |Ellipsis|], ' ') == Split(desc, ' ')[..WordLimit]
  {
    var ws := Split(desc, ' ');
    var kept := Join(ws[..WordLimit], ' ');
    var r := Truncate(desc);
    assert r == kept + Ellipsis;
    assert r[..|r| - |Ellipsis|] == kept;
    SplitPiecesFree(desc, ' ');
    assert forall i :: 0 <= i < WordLimit ==> ws[..WordLimit][i] == ws[i];
    SplitJoin(ws[..WordLimit], ' ');
  }

  // ---------------------------------------------------------------------------
  // Per-order cells
  // ---------------------------------------------------------------------------

  const CancellableStatus: string := "ON_GOING"

  /** The Cancel button is rendered only for orders still in progress. */
  predicate CancelOffered(r: Row) {
    r.status == CancellableStatus
  }

  /** `Number(order.total_price) > 0 ? "Nrs." + total : "—"`. */
  datatype PriceCell = Shown(total: int) | Dash

  function Price(r: Row): (c: PriceCell)
    ensures c.Shown? <==> r.totalPrice.Some? && r.totalPrice.value > 0
    ensures c.Shown? ==> c.total == r.totalPrice.value
  {
    match r.totalPrice
    case Some(p) => if p > 0 then Shown(p) else Dash
    case None => Dash
  }

  /**
   * An order that offers Cancel is one the backend action accepts: for its
   * owner the answer is 200 and the order is moved out of "ON_GOING".
   */
  lemma OfferedCancelIsAccepted(user: OrderViews.Requester, o: OrderModels.Order, now: int)
    requires o.status == CancellableStatus && OrderViews.Sees(user, o)
    ensures OrderViews.CancelOrder(user, o, now).0 == OrderViews.HttpOk
    ensures OrderViews.CancelOrder(user, o, now).1.status != CancellableStatus
  {
  }
}

=== FILE: register.dfy ===
/**
 * The registration page's submit handler: the password check, the request
 * body, the register → login → profile chain (its answers given as oracle
 * results), and the error message shown when a step throws.
 */
module Register {
  import opened Basics
  import opened Json
  import opened Storage
  import Text
  import Auth

  datatype RegForm = RegForm(fullname: string, email: string, password: string, confirmPassword: string,
                             phone: string, address: string)

  /** `err.response.data`: falsy, or a body whose `email` and `password` fields, when present, are error lists. */
  datatype ErrorBody = Falsy | Body(email: Option<seq<string>>, password: Option<seq<string>>)

  /** Why a request threw: no response at all, or a response with a body. */
  datatype Failure = NoResponse | Response(data: ErrorBody)

  /** The outcome of one awaited request. */
  datatype Reply<T> = Succeeded(value: T) | Threw(failure: Failure)

  /** `loginRes.data`: the token pair. */
  datatype Tokens = Tokens(access: string, refresh: string)

  /** The requests the handler sends, in order. */
  datatype Call = RegisterCall(payload: RegPayload) | LoginCall(email: string, password: string) | ProfileCall

  /** The handler's result: the session store afterwards, the error banner, the calls made and where it navigated. */
  datatype Outcome = Outcome(state: Auth.State, error: string, calls: seq<Call>, navigated: Option<string>)

  const MismatchMessage: string := "Passwords do not match"
  const GenericMessage: string := "Registration failed. Try again."
  const NoResponseMessage: string := "Something went wrong. Please try again."
  const MenuPath: string := "/menu"

  /** The registration body; an optional field is `None` when the property is not set. */
  datatype RegPayload = RegPayload(fullname: string, email: string, password: string,
                                   phone: Option<string>, address: Option<string>)

  /** `if (s.trim()) payload.field = s.trim()`. */
  function Optional(s: string): (r: Option<string>)
    ensures r.None? <==> Text.Trim(s) == ""
    ensures r.Some? ==> r.value == Text.Trim(s) && r.value != ""
  {
    var t := Text.Trim(s);
    if t != "" then Some(t) else None
  }

  /** The registration body: the three required fields, plus `phone` and `address` trimmed when not blank. */
  function Payload(f: RegForm): (r: RegPayload)
    ensures r.fullname == f.fullname && r.email == f.email && r.password == f.password
    ensures r.phone == Optional(f.phone) && r.address == Optional(f.address)
  {
    RegPayload(f.fullname, f.email, f.password, Optional(f.phone), Optional(f.address))
  }

  /** `errors[field][0]`: the first message, or `undefined` for an empty list. */
  function First(msgs: seq<string>): string {
    if |msgs| > 0 then msgs[0] else "undefined"
  }

  /** The banner for a thrown request: the email error first, then the password error, then the generic text. */
  function ErrorMessage(f: Failure): (r: string)
    ensures f.NoResponse? || f.data.Falsy? ==> r == NoResponseMessage
    ensures f.Response? && f.data.Body? && f.data.email.Some? ==> r == "Email: " + First(f.data.email.value)
    ensures f.Response? && f.data.Body? && f.data.email.None? && f.data.password.Some? ==>
              r == "Password: " + First(f.data.password.value)
    ensures f.Response? && f.data.Body? && f.data.email.None? && f.data.password.None? ==> r == GenericMessage
  {
    match f
    case NoResponse => NoResponseMessage
    case Response(Falsy) => NoResponseMessage
    case Response(Body(email, password)) =>
      if email.Some? then "Email: " + First(email.value)
      else if password.Some? then "Password: " + First(password.value)
      else GenericMessage
  }

  /** `{ ...userData, role: userData.is_staff ? "staff" : "customer" }`. */
  function WithRole(userData: Object): (r: Object)
    ensures r.Keys == userData.Keys + {"role"}
    ensures r["role"] == Str(if Truthy(Get(userData, "is_staff")) then "staff" else "customer")
    ensures forall k :: k in userData && k != "role" ==> r[k] == userData[k]
  {
    Spread(userData, map["role" := Str(if Truthy(Get(userData, "is_staff")) then "staff" else "customer")])
  }

  /** The storage after the two `setItem` calls of the token pair. */
  function StoreTokens(st: Store, t: Tokens): Store {
    st[AccessKey := Text(t.access)][RefreshKey := Text(t.refresh)]
  }

  /** `handleSubmit`, given the answers of the three requests (later answers are ignored once one throws). */
  function Submit(f: RegForm, st: Auth.State, reg: Reply<()>, login: Reply<Tokens>, profile: Reply<Object>): (r: Outcome)
    ensures f.password != f.confirmPassword ==> r == Outcome(st, MismatchMessage, [], None)
    ensures f.password == f.confirmPassword ==> |r.calls| >= 1 && r.calls[0] == RegisterCall(Payload(f))
    ensures r.navigated.Some? <==> f.password == f.confirmPassword && reg.Succeeded? && login.Succeeded? && profile.Succeeded?
    ensures r.navigated.Some? ==> r.navigated.value == MenuPath && r.error == ""
    ensures f.password == f.confirmPassword && reg.Threw? ==>
              r == Outcome(st, ErrorMessage(reg.failure), [RegisterCall(Payload(f))], None)
    ensures f.password == f.confirmPassword && reg.Succeeded? && login.Threw? ==>
              r == Outcome(st, ErrorMessage(login.failure), [RegisterCall(Payload(f)), LoginCall(f.email, f.password)], None)
  {
    if f.password != f.confirmPassword then Outcome(st, MismatchMessage, [], None)
    else
      var registerCall := RegisterCall(Payload(f));
      match reg
      case Threw(e) => Outcome(st, ErrorMessage(e), [registerCall], None)
      case Succeeded(_) =>
        var calls := [registerCall, LoginCall(f.email, f.password)];
        match login
        case Threw(e) => Outcome(st, ErrorMessage(e), calls, None)
        case Succeeded(t) =>
          var st1 := st.(store := StoreTokens(st.store, t));
          match profile
          case Threw(e) => Outcome(st1, ErrorMessage(e), calls + [ProfileCall], None)
          case Succeeded(userData) =>
            var logged := Auth.Login(st1, Some(WithRole(userData)), t.access, Some(t.refresh));
            Outcome(logged.value, "", calls + [ProfileCall], Some(MenuPath))
  }

  /**
   * After a successful registration the session holds the profile with the
   * role derived from `is_staff`, it is authenticated exactly when the access
   * token is non-empty, and both tokens and the profile are stored.
   */
  lemma RegisteredSession(f: RegForm, st: Auth.State, t: Tokens, userData: Object)
    requires f.password == f.confirmPassword
    ensures var r := Submit(f, st, Succeeded(()), Succeeded(t), Succeeded(userData));
            && |r.calls| == 3
            && Auth.Role(r.state.session) == Str(if Truthy(Get(userData, "is_staff")) then "staff" else "customer")
            && (Auth.IsAuthenticated(r.state.session) <==> t.access != "")
            && AccessKey in r.state.store && r.state.store[AccessKey] == Text(t.access)
            && RefreshKey in r.state.store && r.state.store[RefreshKey] == Text(t.refresh)
            && UserKey in r.state.store && r.state.store[UserKey] == Record(WithRole(userData))
  {
    var st1 := st.(store := StoreTokens(st.store, t));
    var u := WithRole(userData);
    var logged := Auth.Login(st1, Some(u), t.access, Some(t.refresh));
    var r := Submit(f, st, Succeeded(()), Succeeded(t), Succeeded(userData));
    assert r.state == logged.value && |r.calls| == 3;
    SessionAfterLogin(st1, u, t);
  }

  /** The `login` call at the end of a registration. */
  lemma SessionAfterLogin(st1: Auth.State, u: Object, t: Tokens)
    requires "role" in u && u["role"].Str? && u["role"].s != ""
    ensures var s := Auth.Login(st1, Some(u), t.access, Some(t.refresh)).value;
            && Auth.Role(s.session) == u["role"]
            && (Auth.IsAuthenticated(s.session) <==> t.access != "")
            && AccessKey in s.store && s.store[AccessKey] == Text(t.access)
            && (t.refresh != "" ==> RefreshKey in s.store && s.store[RefreshKey] == Text(t.refresh))
            && (t.refresh == "" && RefreshKey in st1.store ==> RefreshKey in s.store && s.store[RefreshKey] == st1.store[RefreshKey])
            && UserKey in s.store && s.store[UserKey] == Record(u)
  {
    assert Auth.WithDefaultRole(u) == u;
    KeysDistinct();
  }

  /**
   * A profile fetch that throws after the login leaves both tokens stored
   * with the in-memory session untouched: on the next page load rehydration
   * finds a saved token, and a saved user only if one was already there.
   */
  lemma ProfileFailureKeepsTokens(f: RegForm, st: Auth.State, t: Tokens, e: Failure)
    requires f.password == f.confirmPassword
    ensures var r := Submit(f, st, Succeeded(()), Succeeded(t), Threw(e));
            && r.state.session == st.session
            && r.state.store == StoreTokens(st.store, t)
            && (t.access != "" ==> Token(r.state.store, AccessKey) == Some(t.access))
            && Entry(r.state.store, UserKey) == Entry(st.store, UserKey)
            && r.error == ErrorMessage(e)
  {
    var r := Submit(f, st, Succeeded(()), Succeeded(t), Threw(e));
    var store := StoreTokens(st.store, t);
    assert r.state == st.(store := store);
    assert r.error == ErrorMessage(e);
    KeysDistinct();
    assert store[AccessKey] == Text(t.access);
    assert UserKey in store <==> UserKey in st.store;
    assert UserKey in store ==> store[UserKey] == st.store[UserKey];
  }
}

=== FILE: report.dfy ===
/** The report page: the completed orders, their count and their sales. */
module Report {
  import opened OrderRows
  import Seqs

  datatype Page = Page(orders: seq<Row>, loading: bool)

  /** What the page shows once loaded. */
  datatype Summary = Summary(table: seq<Row>, totalOrders: nat, totalSales: int)

  /** The effect on mount: the coerced rows, and `loading` cleared whether or not the request threw. */
  function Load(f: Fetch<Row>): (r: Page)
    ensures !r.loading
    ensures f.Array? ==> r.orders == f.items
    ensures !f.Array? ==> r.orders == []
  {
    Page(Coerce(f), false)
  }

  function Summarize(p: Page): (r: Summary)
    ensures r.totalOrders == |r.table| == Seqs.Count(p.orders, StatusIs(CompletedStatus))
    ensures forall i :: 0 <= i < |r.table| ==> r.table[i].status == CompletedStatus && r.table[i] in p.orders
    ensures forall i :: 0 <= i < |p.orders| && p.orders[i].status == CompletedStatus ==> p.orders[i] in r.table
    ensures r.totalSales == Seqs.Sum(p.orders, Seqs.When(StatusIs(CompletedStatus), Amount))
  {
    var table := Completed(p.orders);
    Seqs.FilterLength(p.orders, StatusIs(CompletedStatus));
    SalesOfCompleted(p.orders);
    Summary(table, |table|, Sales(table))
  }

  /** Rows arriving in two batches are listed batch by batch: the table keeps the original order. */
  lemma TableKeepsOrder(a: seq<Row>, b: seq<Row>)
    ensures Summarize(Page(a + b, false)).table == Summarize(Page(a, false)).table + Summarize(Page(b, false)).table
    ensures Summarize(Page(a + b, false)).totalSales
            == Summarize(Page(a, false)).totalSales + Summarize(Page(b, false)).totalSales
  {
    CompletedConcat(a, b);
    Seqs.SumConcat(Completed(a), Completed(b), Amount);
  }

  /** A failed or malformed fetch reports nothing. */
  lemma FailedLoadIsEmpty(f: Fetch<Row>)
    requires !f.Array?
    ensures Summarize(Load(f)) == Summary([], 0, 0)
  {
  }
}

=== FILE: seqs.dfy ===
/** Filters, sums, counts and a descending sort over sequences, shared by the pages and the views. */
module Seqs {

  /** `xs.filter(p)`: the elements satisfying `p`, in their original order. */
  function Filter<T(==)>(xs: seq<T>, p: T -> bool): (r: seq<T>)
    ensures |r| <= |xs|
    ensures forall i :: 0 <= i < |r| ==> p(r[i])
    ensures forall i :: 0 <= i < |r| ==> r[i] in xs
    ensures forall i :: 0 <= i < |xs| && p(xs[i]) ==> xs[i] in r
  {
    if |xs| == 0 then [] else (if p(xs[0]) then [xs[0]] else []) + Filter(xs[1..], p)
  }

  /** Filtering distributes over concatenation: the kept elements stay in their original order. */
  lemma {:induction false} FilterConcat<T>(a: seq<T>, b: seq<T>, p: T -> bool)
    ensures Filter(a + b, p) == Filter(a, p) + Filter(b, p)
  {
    if |a| > 0 {
      assert (a + b)[1..] == a[1..] + b;
      FilterConcat(a[1..], b, p);
    } else {
      assert a + b == b;
    }
  }

  /** Filtering keeps a sorted sequence sorted. */
  lemma {:induction false} FilterSorted<T>(xs: seq<T>, p: T -> bool, key: T -> int)
    requires SortedDesc(xs, key)
    ensures SortedDesc(Filter(xs, p), key)
  {
    if |xs| > 0 {
      var rest := Filter(xs[1..], p);
      FilterSorted(xs[1..], p, key);
      forall j | 0 <= j < |rest|
        ensures key(xs[0]) >= key(rest[j])
      {
        var k :| 0 <= k < |xs[1..]| && xs[1..][k] == rest[j];
        assert xs[k + 1] == rest[j];
      }
      if p(xs[0]) {
        ConsSorted(xs[0], rest, key);
      }
    }
  }

  /** `xs.reduce((acc, x) => acc + f(x), 0)`. */
  function Sum<T>(xs: seq<T>, f: T -> int): int {
    if |xs| == 0 then 0 else f(xs[0]) + Sum(xs[1..], f)
  }

  /** A non-empty sequence is its prefix followed by its last element. */
  lemma InitLast<T>(xs: seq<T>)
    requires |xs| > 0
    ensures xs == xs[..|xs| - 1] + [xs[|xs| - 1]]
  {
  }

  /** The blocks `f(0, xs[0])`, `f(1, xs[1])`, … one after another. */
  function Blocks<D, E>(xs: seq<D>, f: (nat, D) -> seq<E>): seq<E> {
    if |xs| == 0 then [] else Blocks(xs[..|xs| - 1], f) + f(|xs| - 1, xs[|xs| - 1])
  }

  /** When every block of `d` is `w(d)` long, the blocks together are `Sum(xs, w)` long. */
  lemma {:induction false} BlocksLength<D, E>(xs: seq<D>, f: (nat, D) -> seq<E>, w: D -> int)
    requires forall k, d :: |f(k, d)| == w(d)
    ensures |Blocks(xs, f)| == Sum(xs, w)
  {
    if |xs| > 0 {
      var n := |xs|;
      BlocksLength(xs[..n - 1], f, w);
      assert xs == xs[..n - 1] + [xs[n - 1]];
      SumConcat(xs[..n - 1], [xs[n - 1]], w);
    }
  }

  /** Block `i` sits right after the blocks before it. */
  lemma {:induction false} BlockAt<D, E>(xs: seq<D>, f: (nat, D) -> seq<E>, w: D -> int, i: nat)
    requires forall k, d :: |f(k, d)| == w(d)
    requires i < |xs|
    ensures 0 <= Sum(xs[..i], w) && 0 <= w(xs[i]) && Sum(xs[..i], w) + w(xs[i]) <= |Blocks(xs, f)|
    ensures Blocks(xs, f)[Sum(xs[..i], w)..Sum(xs[..i], w) + w(xs[i])] == f(i, xs[i])
  {
    var n := |xs|;
    var init := xs[..n - 1];
    var a, b := Blocks(init, f), f(n - 1, xs[n - 1]);
    assert Blocks(xs, f) == a + b;
    BlocksLength(init, f, w);
    if i == n - 1 {
      assert xs[..i] == init;
      assert (a + b)[|a|..|a| + |b|] == b;
    } else {
      BlockAt(init, f, w, i);
      assert init[..i] == xs[..i];
      assert init[i] == xs[i];
      var lo, hi := Sum(xs[..i], w), Sum(xs[..i], w) + w(xs[i]);
      assert (a + b)[lo..hi] == a[lo..hi];
    }
    SumNonNegative(xs[..i], w, f);
    assert |f(i, xs[i])| == w(xs[i]);
  }

  /** Lengths are never negative, so neither is their sum. */
  lemma {:induction false} SumNonNegative<D, E>(xs: seq<D>, w: D -> int, f: (nat, D) -> seq<E>)
    requires forall k, d :: |f(k, d)| == w(d)
    ensures Sum(xs, w) >= 0
  {
    if |xs| > 0 {
      assert |f(0, xs[0])| == w(xs[0]);
      SumNonNegative(xs[1..], w, f);
    }
  }

  /** The number of elements satisfying `p`. */
  function Count<T>(xs: seq<T>, p: T -> bool): nat {
    if |xs| == 0 then 0 else (if p(xs[0]) then 1 else 0) + Count(xs[1..], p)
  }

  lemma {:induction false} SumConcat<T>(a: seq<T>, b: seq<T>, f: T -> int)
    ensures Sum(a + b, f) == Sum(a, f) + Sum(b, f)
  {
    if |a| == 0 {
      assert a + b == b;
    } else {
      assert (a + b)[1..] == a[1..] + b;
      SumConcat(a[1..], b, f);
    }
  }

  /** The sum of the first `k` elements plus the next one. */
  lemma SumSnoc<T>(xs: seq<T>, k: nat, f: T -> int)
    requires k < |xs|
    ensures Sum(xs[..k + 1], f) == Sum(xs[..k], f) + f(xs[k])
  {
    assert xs[..k + 1] == xs[..k] + [xs[k]];
    SumConcat(xs[..k], [xs[k]], f);
  }

  /** Filtering keeps exactly the counted elements. */
  lemma {:induction false} FilterLength<T>(xs: seq<T>, p: T -> bool)
    ensures |Filter(xs, p)| == Count(xs, p)
  {
    if |xs| > 0 {
      FilterLength(xs[1..], p);
    }
  }

  /** `f` where `p` holds, 0 elsewhere. */
  function When<T>(p: T -> bool, f: T -> int): T -> int {
    x => if p(x) then f(x) else 0
  }

  /** Summing over a filter is summing the elements that pass it. */
  lemma {:induction false} SumFilter<T>(xs: seq<T>, p: T -> bool, f: T -> int)
    ensures Sum(Filter(xs, p), f) == Sum(xs, When(p, f))
  {
    if |xs| > 0 {
      var rest := Filter(xs[1..], p);
      SumFilter(xs[1..], p, f);
      SumConcat(if p(xs[0]) then [xs[0]] else [], rest, f);
    }
  }

  /** Nothing passes `p`: the guarded sum is 0. */
  lemma {:induction false} SumWhenNone<T>(xs: seq<T>, p: T -> bool, f: T -> int)
    requires forall i :: 0 <= i < |xs| ==> !p(xs[i])
    ensures Sum(xs, When(p, f)) == 0
  {
    if |xs| > 0 {
      SumWhenNone(xs[1..], p, f);
    }
  }

  /** Nothing passes `p`: the count is 0. */
  lemma {:induction false} CountNone<T>(xs: seq<T>, p: T -> bool)
    requires forall i :: 0 <= i < |xs| ==> !p(xs[i])
    ensures Count(xs, p) == 0
  {
    if |xs| > 0 {
      CountNone(xs[1..], p);
    }
  }

  /** The disjunction of two predicates. */
  function Either<T>(p: T -> bool, q: T -> bool): T -> bool {
    x => p(x) || q(x)
  }

  /** The counts of two exclusive predicates add up to the count of their disjunction. */
  lemma {:induction false} ExclusiveCounts<T>(xs: seq<T>, p: T -> bool, q: T -> bool)
    requires forall x :: !(p(x) && q(x))
    ensures Count(xs, p) + Count(xs, q) == Count(xs, Either(p, q))
  {
    if |xs| > 0 {
      ExclusiveCounts(xs[1..], p, q);
    }
  }

  lemma {:induction false} CountAtMostLength<T>(xs: seq<T>, p: T -> bool)
    ensures Count(xs, p) <= |xs|
  {
    if |xs| > 0 {
      CountAtMostLength(xs[1..], p);
    }
  }

  /** Non-increasing by `key`. */
  predicate SortedDesc<T>(xs: seq<T>, key: T -> int) {
    forall i, j :: 0 <= i < j < |xs| ==> key(xs[i]) >= key(xs[j])
  }

  /** A prefix of a sorted sequence is sorted. */
  lemma PrefixSorted<T>(xs: seq<T>, n: nat, key: T -> int)
    requires SortedDesc(xs, key) && n <= |xs|
    ensures SortedDesc(xs[..n], key)
  {
    forall i, j | 0 <= i < j < n
      ensures key(xs[..n][i]) >= key(xs[..n][j])
    {
      assert xs[..n][i] == xs[i] && xs[..n][j] == xs[j];
    }
  }

  /** A prefix holds no element more often than the whole sequence. */
  lemma PrefixSubMultiset<T>(xs: seq<T>, n: nat)
    requires n <= |xs|
    ensures multiset(xs[..n]) <= multiset(xs)
  {
    assert xs == xs[..n] + xs[n..];
  }

  /** Every element of a permutation of `ys` sits somewhere in `ys`. */
  lemma PermutationWitness<T>(xs: seq<T>, ys: seq<T>, i: nat)
    requires multiset(xs) == multiset(ys) && i < |xs|
    ensures exists j :: 0 <= j < |ys| && ys[j] == xs[i]
  {
    assert xs[i] in multiset(xs);
    assert xs[i] in multiset(ys);
    assert xs[i] in ys;
  }

  /** Prepending an element no smaller than the head keeps a sorted sequence sorted. */
  lemma ConsSorted<T>(y: T, xs: seq<T>, key: T -> int)
    requires SortedDesc(xs, key)
    requires |xs| > 0 ==> key(y) >= key(xs[0])
    ensures SortedDesc([y] + xs, key)
  {
    var r := [y] + xs;
    forall i, j | 0 <= i < j < |r|
      ensures key(r[i]) >= key(r[j])
    {
      if i == 0 && j > 1 {
        assert r[1] == xs[0] && r[j] == xs[j - 1];
      }
    }
  }

  /** Insert `x` after every element whose key is at least its own. */
  function Insert<T>(x: T, xs: seq<T>, key: T -> int): (r: seq<T>)
    requires SortedDesc(xs, key)
    ensures SortedDesc(r, key)
    ensures multiset(r) == multiset(xs) + multiset{x}
    ensures |r| == |xs| + 1
    ensures key(r[0]) == key(x) || (|xs| > 0 && key(r[0]) == key(xs[0]))
  {
    if |xs| == 0 then [x]
    else if key(xs[0]) >= key(x) then
      var rest := Insert(x, xs[1..], key);
      assert xs == [xs[0]] + xs[1..];
      assert |xs| > 1 ==> key(xs[0]) >= key(xs[1..][0]);
      ConsSorted(xs[0], rest, key);
      [xs[0]] + rest
    else
      ConsSorted(x, xs, key);
      [x] + xs
  }

  /**
   * A stable sort by non-increasing key, the way `sort((a, b) => key(b) - key(a))`
   * orders: the result is a permutation of the input and sorted.
   */
  function SortDesc<T>(xs: seq<T>, key: T -> int): (r: seq<T>)
    ensures SortedDesc(r, key)
    ensures multiset(r) == multiset(xs)
    ensures |r| == |xs|
  {
    if |xs| == 0 then []
    else
      assert xs == xs[..|xs| - 1] + [xs[|xs| - 1]];
      Insert(xs[|xs| - 1], SortDesc(xs[..|xs| - 1], key), key)
  }
}

=== FILE: staff_orders.dfy ===
/**
 * The staff order page. Orders are kept as the plain objects the API
 * returns; the page holds the list, the status filter, and the text of each
 * order's price input keyed by the order id.
 */
module StaffOrders {
  import opened Basics
  import opened Json
  import Text
  import Seqs
  import OrderModels

  /** `priceInputs`: property key `order.id` to the input's value. */
  type Prices = map<Value, Value>

  datatype Page = Page(orders: seq<Object>, filter: string, prices: Prices)

  const AllFilter: string := "ALL"

  function Id(o: Object): Value {
    Get(o, "id")
  }

  /** `order.total_price || ""`. */
  function InputOf(o: Object): Value {
    Or(Get(o, "total_price"), Str(""))
  }

  /** No later order in the list has the same id as the one at `i`. */
  predicate LastWithId(orders: seq<Object>, i: nat)
    requires i < |orders|
  {
    forall j :: i < j < |orders| ==> Id(orders[j]) != Id(orders[i])
  }

  /** The three facts `InitialPrices` promises, for a given map. */
  predicate PricesOf(orders: seq<Object>, r: Prices) {
    && (forall i :: 0 <= i < |orders| ==> Id(orders[i]) in r)
    && (forall k :: k in r ==> exists i :: 0 <= i < |orders| && Id(orders[i]) == k)
    && (forall i :: 0 <= i < |orders| && LastWithId(orders, i) ==> r[Id(orders[i])] == InputOf(orders[i]))
  }

  /** One more assignment `initialPrices[order.id] = …` keeps the facts. */
  lemma PricesStep(orders: seq<Object>, init: Prices)
    requires |orders| > 0 && PricesOf(orders[..|orders| - 1], init)
    ensures PricesOf(orders, init[Id(orders[|orders| - 1]) := InputOf(orders[|orders| - 1])])
  {
    var n := |orders|;
    var prefix := orders[..n - 1];
    assert forall i :: 0 <= i < n - 1 ==> prefix[i] == orders[i];
    var r := init[Id(orders[n - 1]) := InputOf(orders[n - 1])];
    PricesStepKeys(orders, init, prefix, r);
    PricesStepValues(orders, init, prefix, r);
  }

  lemma PricesStepKeys(orders: seq<Object>, init: Prices, prefix: seq<Object>, r: Prices)
    requires |orders| > 0 && prefix == orders[..|orders| - 1]
    requires forall i :: 0 <= i < |prefix| ==> Id(prefix[i]) in init
    requires forall k :: k in init ==> exists i :: 0 <= i < |prefix| && Id(prefix[i]) == k
    requires r == init[Id(orders[|orders| - 1]) := InputOf(orders[|orders| - 1])]
    ensures forall i :: 0 <= i < |orders| ==> Id(orders[i]) in r
    ensures forall k :: k in r ==> exists i :: 0 <= i < |orders| && Id(orders[i]) == k
  {
    var n := |orders|;
    forall i | 0 <= i < n
      ensures Id(orders[i]) in r
    {
      if i < n - 1 {
        assert prefix[i] == orders[i];
      }
    }
    forall k | k in r
      ensures exists i :: 0 <= i < n && Id(orders[i]) == k
    {
      if k == Id(orders[n - 1]) {
        assert 0 <= n - 1 < n && Id(orders[n - 1]) == k;
      } else {
        assert k in init;
        var i :| 0 <= i < n - 1 && Id(prefix[i]) == k;
        assert orders[i] == prefix[i];
      }
    }
  }

  lemma PricesStepValues(orders: seq<Object>, init: Prices, prefix: seq<Object>, r: Prices)
    requires |orders| > 0 && prefix == orders[..|orders| - 1]
    requires forall i :: 0 <= i < |prefix| ==> Id(prefix[i]) in init
    requires forall i :: 0 <= i < |prefix| && LastWithId(prefix, i) ==> init[Id(prefix[i])] == InputOf(prefix[i])
    requires r == init[Id(orders[|orders| - 1]) := InputOf(orders[|orders| - 1])]
    ensures forall i :: 0 <= i < |orders| && LastWithId(orders, i) ==> r[Id(orders[i])] == InputOf(orders[i])
  {
    forall i | 0 <= i < |orders| && LastWithId(orders, i)
      ensures r[Id(orders[i])] == InputOf(orders[i])
    {
      PriceOfEarlier(orders, init, prefix, r, i);
    }
  }

  lemma PriceOfEarlier(orders: seq<Object>, init: Prices, prefix: seq<Object>, r: Prices, i: nat)
    requires |orders| > 0 && prefix == orders[..|orders| - 1]
    requires forall i :: 0 <= i < |prefix| ==> Id(prefix[i]) in init
    requires forall i :: 0 <= i < |prefix| && LastWithId(prefix, i) ==> init[Id(prefix[i])] == InputOf(prefix[i])
    requires r == init[Id(orders[|orders| - 1]) := InputOf(orders[|orders| - 1])]
    requires i < |orders| && LastWithId(orders, i)
    ensures Id(orders[i]) in r && r[Id(orders[i])] == InputOf(orders[i])
  {
    var n := |orders|;
    if i < n - 1 {
      assert prefix[i] == orders[i];
      assert Id(orders[i]) != Id(orders[n - 1]);
      assert LastWithId(prefix, i) by {
        forall j | i < j < n - 1
          ensures Id(prefix[j]) != Id(prefix[i])
        {
          assert prefix[j] == orders[j];
        }
      }
    }
  }

  /**
   * The price inputs after a fetch: one entry per order id, and no other;
   * when two orders share an id the later one's price wins, as successive
   * assignments do.
   */
  function InitialPrices(orders: seq<Object>): (r: Prices)
    ensures PricesOf(orders, r)
  {
    if |orders| == 0 then map[]
    else
      var n := |orders|;
      var init := InitialPrices(orders[..n - 1]);
      PricesStep(orders, init);
      init[Id(orders[n - 1]) := InputOf(orders[n - 1])]
  }

  /** `fetchOrders` given the list `GET /orders/` answered, or `None` when it threw. */
  function FetchOrders(p: Page, answer: Option<seq<Object>>): (r: Page)
    ensures answer.None? ==> r == p
    ensures answer.Some? ==> r.orders == answer.value && r.prices == InitialPrices(answer.value) && r.filter == p.filter
  {
    match answer
    case None => p
    case Some(orders) => p.(orders := orders, prices := InitialPrices(orders))
  }

  // ---------------------------------------------------------------------------
  // handleUpdate
  // ---------------------------------------------------------------------------

  /** What `PATCH /orders/<id>/` gave back. */
  datatype Patch = Patched(data: Object) | PatchFailed

  /** `prev.map((order) => order.id === id ? { ...order, ...data } : order)`. */
  function Merge(orders: seq<Object>, id: Value, data: Object): (r: seq<Object>)
    ensures |r| == |orders|
    ensures forall i :: 0 <= i < |r| && Id(orders[i]) == id ==> r[i] == Spread(orders[i], data)
    ensures forall i :: 0 <= i < |r| && Id(orders[i]) != id ==> r[i] == orders[i]
  {
    seq(|orders|, i requires 0 <= i < |orders| => if Id(orders[i]) == id then Spread(orders[i], data) else orders[i])
  }

  /**
   * `handleUpdate(id, data)` after the request: a failure changes nothing;
   * an answer is merged into the matching orders, and the price input of `id`
   * follows the answer only when it carries `total_price`.
   */
  function HandleUpdate(p: Page, id: Value, reply: Patch): (r: Page)
    ensures reply.PatchFailed? ==> r == p
    ensures reply.Patched? ==> r.orders == Merge(p.orders, id, reply.data) && r.filter == p.filter
    ensures reply.Patched? && Get(reply.data, "total_price") != Undefined ==> r.prices == p.prices[id := reply.data["total_price"]]
    ensures reply.Patched? && Get(reply.data, "total_price") == Undefined ==> r.prices == p.prices
  {
    match reply
    case PatchFailed => p
    case Patched(data) =>
      var prices := if Get(data, "total_price") != Undefined then p.prices[id := data["total_price"]] else p.prices;
      Page(Merge(p.orders, id, data), p.filter, prices)
  }

  /**
   * Merging the same answer twice is merging it once, as long as the answer
   * does not carry a different id.
   */
  lemma MergeIdempotent(orders: seq<Object>, id: Value, data: Object)
    requires "id" in data ==> data["id"] == id
    ensures Merge(Merge(orders, id, data), id, data) == Merge(orders, id, data)
  {
    var once := Merge(orders, id, data);
    var twice := Merge(once, id, data);
    forall i | 0 <= i < |orders|
      ensures twice[i] == once[i]
    {
      if Id(orders[i]) == id {
        assert Id(once[i]) == id;
        assert Spread(once[i], data) == once[i];
      }
    }
  }

  /** `handlePriceChange(id, value)`: only the entry of `id` changes. */
  function HandlePriceChange(prices: Prices, id: Value, value: Value): (r: Prices)
    ensures r.Keys == prices.Keys + {id}
    ensures r[id] == value
    ensures forall k :: k in prices && k != id ==> r[k] == prices[k]
  {
    prices[id := value]
  }

  // ---------------------------------------------------------------------------
  // handleSetPrice
  // ---------------------------------------------------------------------------

  /** A JavaScript number restricted to the integers the model uses for money. */
  datatype Numeric = NotANumber | Number(n: int)

  /**
   * `Number(v)`. The numeric-literal grammar for non-blank strings is the
   * `parse` oracle (`None` for text that is not a number); blank text is 0.
   */
  function ToNumber(v: Value, parse: string -> Option<int>): (r: Numeric)
    ensures v.Undefined? || v.Opaque? ==> r.NotANumber?
    ensures v.Null? ==> r == Number(0)
    ensures v.Str? && Text.Trim(v.s) == "" ==> r == Number(0)
    ensures v.Str? && Text.Trim(v.s) != "" ==>
              (r.NotANumber? <==> parse(Text.Trim(v.s)).None?)
              && (r.Number? ==> r.n == parse(Text.Trim(v.s)).value)
  {
    match v
    case Undefined => NotANumber
    case Null => Number(0)
    case Bool(b) => Number(if b then 1 else 0)
    case Num(n) => Number(n)
    case Str(s) =>
      var t := Text.Trim(s);
      if t == "" then Number(0)
      else (match parse(t)
        case None => NotANumber
        case Some(n) => Number(n))
    case Opaque(_) => NotANumber
  }

  /** `priceInputs[id]`: a missing entry reads as `undefined`. */
  function InputFor(prices: Prices, id: Value): Value {
    if id in prices then prices[id] else Undefined
  }

  /** `handleSetPrice(id)`: the body it would send, or `None` when the input is not a number. */
  function SetPrice(prices: Prices, id: Value, parse: string -> Option<int>): (r: Option<Object>)
    ensures r.None? <==> ToNumber(InputFor(prices, id), parse).NotANumber?
    ensures r.Some? ==> r.value.Keys == {"total_price"}
                        && r.value["total_price"] == Num(ToNumber(InputFor(prices, id), parse).n)
  {
    match ToNumber(InputFor(prices, id), parse)
    case NotANumber => None
    case Number(n) => Some(map["total_price" := Num(n)])
  }

  /** An order fetched without a price shows an empty input; setting it as is sends a price of 0. */
  lemma BlankInputSendsZero(orders: seq<Object>, i: nat, parse: string -> Option<int>)
    requires i < |orders| && LastWithId(orders, i)
    requires !Truthy(Get(orders[i], "total_price"))
    ensures SetPrice(InitialPrices(orders), Id(orders[i]), parse) == Some(map["total_price" := Num(0)])
  {
    var prices := InitialPrices(orders);
    assert InputFor(prices, Id(orders[i])) == Str("");
    assert Text.Trim("") == "";
  }

  // ---------------------------------------------------------------------------
  // Filtering and actions
  // ---------------------------------------------------------------------------

  function StatusIs(s: string): Object -> bool {
    (o: Object) => Get(o, "status") == Str(s)
  }

  /** `visibleOrders`. */
  function Visible(orders: seq<Object>, filter: string): (r: seq<Object>)
    ensures filter == AllFilter ==> r == orders
    ensures filter != AllFilter ==> forall i :: 0 <= i < |r| ==> Get(r[i], "status") == Str(filter) && r[i] in orders
    ensures filter != AllFilter ==> forall i :: 0 <= i < |orders| && Get(orders[i], "status") == Str(filter) ==> orders[i] in r
  {
    if filter == AllFilter then orders else Seqs.Filter(orders, StatusIs(filter))
  }

  /** Filtering keeps the list's order: the visible part of a concatenation is the concatenation of the visible parts. */
  lemma VisibleKeepsOrder(a: seq<Object>, b: seq<Object>, filter: string)
    ensures Visible(a + b, filter) == Visible(a, filter) + Visible(b, filter)
  {
    if filter != AllFilter {
      Seqs.FilterConcat(a, b, StatusIs(filter));
    }
  }

  const ActionableStatus: string := "PENDING"

  /** The Reject and Complete buttons. */
  datatype Action = Reject | Complete

  predicate ActionsOffered(o: Object) {
    Get(o, "status") == Str(ActionableStatus)
  }

  /** The body each button passes to `handleUpdate`. */
  function ActionBody(a: Action): (r: Object)
    ensures r.Keys == {"status"}
    ensures r["status"] == Str(if a == Reject then "REJECTED" else "COMPLETED")
    ensures r["status"].Str? && r["status"].s in OrderModels.StatusChoices
  {
    match a
    case Reject => map["status" := Str("REJECTED")]
    case Complete => map["status" := Str("COMPLETED")]
  }

  /** "PENDING" is not a status an order can hold, so no stored order shows the buttons. */
  lemma NoActionsForStoredOrders(o: Object)
    requires Get(o, "status").Str? && Get(o, "status").s in OrderModels.StatusChoices
    ensures !ActionsOffered(o)
  {
  }
}

=== FILE: storage.dfy ===
/**
 * The browser's `localStorage` as the session code uses it: a map from keys
 * to stored entries. Tokens are stored as text; the user profile is stored as
 * the JSON serialisation of an object, which this model keeps as the object
 * itself (serialising and parsing a plain data object gives it back).
 */
module Storage {
  import opened Basics
  import opened Json

  datatype Stored = Text(s: string) | Record(o: Object)

  type Store = map<string, Stored>

  const AccessKey: string := "access_token"
  const RefreshKey: string := "refresh_token"
  const UserKey: string := "user"

  /** The session keys are three different keys. */
  lemma KeysDistinct()
    ensures AccessKey != RefreshKey && AccessKey != UserKey && RefreshKey != UserKey
  {
    assert AccessKey[0] == 'a' && RefreshKey[0] == 'r' && UserKey[0] == 'u';
  }

  /** The three keys that hold a session. */
  const SessionKeys: set<string> := {AccessKey, RefreshKey, UserKey}

  /** `localStorage.getItem(key)` followed by a truthiness test: a token is a non-empty string. */
  function Token(st: Store, key: string): Option<string> {
    if key in st && st[key].Text? && st[key].s != "" then Some(st[key].s) else None
  }

  /** `localStorage.getItem(key)` followed by a truthiness test, for any kind of entry. */
  function Entry(st: Store, key: string): Option<Stored> {
    if key in st && (st[key].Record? || st[key].s != "") then Some(st[key]) else None
  }

  /** The three `removeItem` calls that end a session: exactly the session keys go, all else stays. */
  function ClearSession(st: Store): (r: Store)
    ensures r.Keys == st.Keys - SessionKeys
    ensures forall k :: k in r ==> r[k] == st[k]
    ensures Token(r, AccessKey).None? && Token(r, RefreshKey).None? && Entry(r, UserKey).None?
  {
    st - SessionKeys
  }

  /** Clearing an already cleared store changes nothing. */
  lemma ClearSessionIdempotent(st: Store)
    ensures ClearSession(ClearSession(st)) == ClearSession(st)
  {
  }
}

=== FILE: text.dfy ===
/** String operations of the client code, with JavaScript's semantics. */
module Text {

  /** `s.split(sep)` for a one-character separator: empty pieces are kept, `"".split(sep)` is `[""]`. */
  function Split(s: string, sep: char): (r: seq<string>)
    ensures |r| >= 1
  {
    if |s| == 0 then [""]
    else
      var init := Split(s[..|s| - 1], sep);
      var c := s[|s| - 1];
      if c == sep then init + [""]
      else init[..|init| - 1] + [init[|init| - 1] + [c]]
  }

  /** No piece of a split holds the separator. */
  lemma {:induction false} SplitPiecesFree(s: string, sep: char)
    ensures forall i :: 0 <= i < |Split(s, sep)| ==> sep !in Split(s, sep)[i]
  {
    if |s| > 0 {
      var init := Split(s[..|s| - 1], sep);
      var c := s[|s| - 1];
      SplitPiecesFree(s[..|s| - 1], sep);
      if c != sep {
        var last := init[|init| - 1];
        assert sep !in last;
        assert sep !in last + [c];
        var r := init[..|init| - 1] + [last + [c]];
        assert Split(s, sep) == r;
        forall i | 0 <= i < |r|
          ensures sep !in r[i]
        {
          if i < |r| - 1 {
            assert r[i] == init[i];
          }
        }
      } else {
        assert Split(s, sep) == init + [""];
      }
    }
  }

  /** A split has one more piece than the string has separators. */
  lemma {:induction false} SplitCount(s: string, sep: char)
    ensures |Split(s, sep)| == multiset(s)[sep] + 1
  {
    if |s| > 0 {
      var s', c := s[..|s| - 1], s[|s| - 1];
      assert s == s' + [c];
      SplitCount(s', sep);
      SplitSnoc(s', c, sep);
    }
  }

  /** `ws.join(sep)`: "" for no pieces, and otherwise it starts with the first piece. */
  function Join(ws: seq<string>, sep: char): (r: string)
    ensures |ws| == 0 ==> r == ""
    ensures |ws| >= 1 ==> ws[0] <= r
  {
    if |ws| == 0 then ""
    else if |ws| == 1 then ws[0]
    else Join(ws[..|ws| - 1], sep) + [sep] + ws[|ws| - 1]
  }

  /** A join of at least two pieces ends with the last piece, after a separator. */
  lemma JoinEndsWithLast(ws: seq<string>, sep: char)
    requires |ws| >= 2
    ensures var r, last := Join(ws, sep), ws[|ws| - 1];
            && |last| < |r|
            && r[|r| - |last|..] == last
            && r[|r| - |last| - 1] == sep
  {
    var head, last := Join(ws[..|ws| - 1], sep) + [sep], ws[|ws| - 1];
    assert Join(ws, sep) == head + last;
  }

  /** Joining what was split gives the string back. */
  lemma {:induction false} JoinSplit(s: string, sep: char)
    ensures Join(Split(s, sep), sep) == s
  {
    if |s| > 0 {
      var s', c := s[..|s| - 1], s[|s| - 1];
      assert s == s' + [c];
      JoinSplit(s', sep);
      SplitSnoc(s', c, sep);
      if c == sep {
        JoinOpenPiece(Split(s', sep), sep);
      } else {
        JoinExtendPiece(Split(s', sep), c, sep);
      }
    }
  }

  /** Opening an empty last piece adds one separator to the join. */
  lemma JoinOpenPiece(ws: seq<string>, sep: char)
    requires |ws| >= 1
    ensures Join(ws + [""], sep) == Join(ws, sep) + [sep]
  {
    var p := ws + [""];
    assert p[..|p| - 1] == ws;
  }

  /** Extending the last piece by `c` extends the join by `c`. */
  lemma JoinExtendPiece(ws: seq<string>, c: char, sep: char)
    requires |ws| >= 1
    ensures Join(ws[..|ws| - 1] + [ws[|ws| - 1] + [c]], sep) == Join(ws, sep) + [c]
  {
    var last := ws[|ws| - 1];
    var r := ws[..|ws| - 1] + [last + [c]];
    if |ws| == 1 {
      assert r == [last + [c]];
    } else {
      assert r[..|r| - 1] == ws[..|ws| - 1];
      assert Join(r, sep) == Join(ws[..|ws| - 1], sep) + [sep] + last + [c];
    }
  }

  /** One more character: a separator opens a new piece, anything else extends the last one. */
  lemma SplitSnoc(s: string, c: char, sep: char)
    ensures var p := Split(s, sep);
            Split(s + [c], sep) == if c == sep then p + [""] else p[..|p| - 1] + [p[|p| - 1] + [c]]
  {
    assert (s + [c])[..|s|] == s;
  }

  /** Appending text free of the separator extends the last piece. */
  lemma {:induction false} SplitAppend(x: string, w: string, sep: char)
    requires sep !in w
    ensures var p := Split(x, sep);
            Split(x + w, sep) == p[..|p| - 1] + [p[|p| - 1] + w]
    decreases |w|
  {
    var p := Split(x, sep);
    if |w| == 0 {
      assert x + w == x;
      assert p == p[..|p| - 1] + [p[|p| - 1]];
      assert p[|p| - 1] + w == p[|p| - 1];
    } else {
      var w', c := w[..|w| - 1], w[|w| - 1];
      assert w == w' + [c];
      assert c != sep;
      assert sep !in w';
      SplitAppend(x, w', sep);
      SplitSnoc(x + w', c, sep);
      assert x + w == (x + w') + [c];
      ExtendLastPiece(p, Split(x + w', sep), w', c);
    }
  }

  /** Extending the last piece by `w'` and then by `c` is extending it by `w' + [c]`. */
  lemma ExtendLastPiece(p: seq<string>, q: seq<string>, w': string, c: char)
    requires |p| >= 1
    requires q == p[..|p| - 1] + [p[|p| - 1] + w']
    ensures q[..|q| - 1] + [q[|q| - 1] + [c]] == p[..|p| - 1] + [p[|p| - 1] + (w' + [c])]
  {
    assert q[..|q| - 1] == p[..|p| - 1];
    assert q[|q| - 1] + [c] == p[|p| - 1] + (w' + [c]);
  }

  /** Splitting what was joined gives the pieces back, when no piece holds the separator. */
  lemma {:induction false} SplitJoin(ws: seq<string>, sep: char)
    requires |ws| >= 1
    requires forall i :: 0 <= i < |ws| ==> sep !in ws[i]
    ensures Split(Join(ws, sep), sep) == ws
  {
    if |ws| == 1 {
      SplitSingle(ws[0], sep);
    } else {
      var init, last := ws[..|ws| - 1], ws[|ws| - 1];
      assert sep !in last;
      SplitJoin(init, sep);
      var j := Join(init, sep);
      assert Join(ws, sep) == (j + [sep]) + last;
      SplitSnoc(j, sep, sep);
      assert Split(j + [sep], sep) == init + [""];
      SplitAppend(j + [sep], last, sep);
      assert (init + [""])[..|init|] == init;
      assert "" + last == last;
      assert ws == init + [last];
    }
  }

  /** A piece without the separator splits into itself. */
  lemma SplitSingle(w: string, sep: char)
    requires sep !in w
    ensures Split(w, sep) == [w]
  {
    SplitAppend("", w, sep);
    assert "" + w == w;
  }

  /** Joining the first `k` pieces gives a prefix of the whole join, followed by the separator. */
  lemma {:induction false} JoinPrefix(ws: seq<string>, k: nat, sep: char)
    requires 1 <= k < |ws|
    ensures Join(ws, sep) == Join(ws[..k], sep) + [sep] + Join(ws[k..], sep)
    decreases |ws|
  {
    var n := |ws|;
    if k == n - 1 {
      assert ws[..n - 1] == ws[..k];
      assert ws[k..] == [ws[n - 1]];
    } else {
      JoinPrefix(ws[..n - 1], k, sep);
      assert ws[..n - 1][..k] == ws[..k];
      var tail := ws[k..];
      assert tail[..|tail| - 1] == ws[..n - 1][k..];
      assert tail[|tail| - 1] == ws[n - 1];
    }
  }

  /**
   * The characters `String.prototype.trim` removes: the white space and line
   * terminator code points of section 12.2 and 12.3 of ECMA-262.
   */
  predicate IsSpace(c: char) {
    c == '\t' || c == '\U{B}' || c == '\U{C}' || c == ' ' || c == '\U{A0}' || c == '\U{FEFF}'
    || c == '\n' || c == '\r' || c == '\U{2028}' || c == '\U{2029}'
    || c == '\U{1680}' || ('\U{2000}' <= c <= '\U{200A}') || c == '\U{202F}' || c == '\U{205F}'
    || c == '\U{3000}'
  }

  /** Drops the leading characters that satisfy `sp`. */
  function StripStart(s: string, sp: char -> bool): (r: string)
    ensures |r| <= |s| && r == s[|s| - |r|..]
    ensures forall i :: 0 <= i < |s| - |r| ==> sp(s[i])
    ensures |r| > 0 ==> !sp(r[0])
  {
    if |s| > 0 && sp(s[0]) then
      var r := StripStart(s[1..], sp);
      assert forall i :: 1 <= i < |s| - |r| ==> s[i] == s[1..][i - 1];
      r
    else s
  }

  /** Drops the trailing characters that satisfy `sp`. */
  function StripEnd(s: string, sp: char -> bool): (r: string)
    ensures |r| <= |s| && r == s[..|r|]
    ensures forall i :: |r| <= i < |s| ==> sp(s[i])
    ensures |r| > 0 ==> !sp(r[|r| - 1])
  {
    if |s| > 0 && sp(s[|s| - 1]) then StripEnd(s[..|s| - 1], sp) else s
  }

  /**
   * The slice of `s` left once the leading and trailing characters
   * satisfying `sp` are removed; it neither starts nor ends with one.
   */
  function Strip(s: string, sp: char -> bool): (r: string)
    ensures |s| - |StripStart(s, sp)| + |r| <= |s|
    ensures r == s[|s| - |StripStart(s, sp)|..|s| - |StripStart(s, sp)| + |r|]
    ensures forall k :: 0 <= k < |s| - |StripStart(s, sp)| ==> sp(s[k])
    ensures |r| > 0 ==> !sp(r[0]) && !sp(r[|r| - 1])
  {
    var a := StripStart(s, sp);
    var b := StripEnd(a, sp);
    assert b == s[|s| - |a|..|s| - |a| + |b|];
    b
  }

  /** Everything `Strip` drops after the slice satisfies `sp` too. */
  lemma StripDropsTrailing(s: string, sp: char -> bool)
    ensures forall k :: |s| - |StripStart(s, sp)| + |Strip(s, sp)| <= k < |s| ==> sp(s[k])
  {
    var a := StripStart(s, sp);
    var i := |s| - |a|;
    forall k | i + |Strip(s, sp)| <= k < |s|
      ensures sp(s[k])
    {
      assert s[k] == a[k - i];
    }
  }

  /** `Strip` gives "" exactly for a string whose every character satisfies `sp`. */
  lemma StripEmpty(s: string, sp: char -> bool)
    ensures Strip(s, sp) == "" <==> forall k :: 0 <= k < |s| ==> sp(s[k])
  {
    var i := |s| - |StripStart(s, sp)|;
    StripDropsTrailing(s, sp);
    if Strip(s, sp) != "" {
      assert s[i] == Strip(s, sp)[0];
    }
  }

  /** `s.trim()`: no longer than `s`, and neither starting nor ending with white space. */
  function Trim(s: string): (r: string)
    ensures |r| <= |s|
    ensures |r| > 0 ==> !IsSpace(r[0]) && !IsSpace(r[|r| - 1])
  {
    Strip(s, IsSpace)
  }

  /** `trim` gives "" exactly for a string of white space. */
  lemma TrimEmpty(s: string)
    ensures Trim(s) == "" <==> forall k :: 0 <= k < |s| ==> IsSpace(s[k])
  {
    StripEmpty(s, IsSpace);
  }

  /** The digit character for `d`. */
  function DigitChar(d: nat): (r: char)
    requires d < 10
    ensures '0' <= r <= '9' && r as int - '0' as int == d
  {
    "0123456789"[d]
  }

  /** The decimal form of a natural number, without leading zeros. */
  function NatToString(n: nat): (r: string)
    ensures |r| >= 1
    ensures forall i :: 0 <= i < |r| ==> '0' <= r[i] <= '9'
    ensures |r| > 1 ==> r[0] != '0'
  {
    if n < 10 then [DigitChar(n)] else NatToString(n / 10) + [DigitChar(n % 10)]
  }

  /** The number a string of decimal digits denotes. */
  function DigitsValue(s: string): nat
    requires forall i :: 0 <= i < |s| ==> '0' <= s[i] <= '9'
  {
    if |s| == 0 then 0 else DigitsValue(s[..|s| - 1]) * 10 + (s[|s| - 1] as int - '0' as int)
  }

  /** Reading the decimal form back gives the number. */
  lemma {:induction false} NatToStringRoundTrip(n: nat)
    ensures DigitsValue(NatToString(n)) == n
  {
    var s := NatToString(n);
    if n < 10 {
      assert s == [DigitChar(n)];
    } else {
      var q, d := n / 10, n % 10;
      NatToStringRoundTrip(q);
      assert s == NatToString(q) + [DigitChar(d)];
      assert s[..|s| - 1] == NatToString(q);
      assert s[|s| - 1] as int - '0' as int == d;
      assert DigitsValue(s) == q * 10 + d;
    }
  }

  /** Different numbers have different decimal forms. */
  lemma NatToStringInjective(m: nat, n: nat)
    requires NatToString(m) == NatToString(n)
    ensures m == n
  {
    NatToStringRoundTrip(m);
    NatToStringRoundTrip(n);
  }

  /** `String(n)` for an integer. */
  function IntToString(n: int): string {
    if n < 0 then "-" + NatToString(-n) else NatToString(n)
  }
}

=== FILE: update_order.dfy ===
/**
 * The order-editing form: the order's items edited in place and the JSON body
 * of the `PUT` built from them.
 */
module UpdateOrder {
  import opened Json

  /** One item of `order.items`: its plain fields and its image records. */
  datatype EditItem = EditItem(fields: Object, images: seq<Object>)

  datatype Field = OrderName | OrderDetails | Quantity

  function FieldKey(f: Field): string {
    match f
    case OrderName => "order_name"
    case OrderDetails => "order_details"
    case Quantity => "quantity"
  }

  /** `handleItemChange(idx, field, value)`, reached only from a rendered item. */
  function HandleItemChange(items: seq<EditItem>, idx: nat, field: Field, value: string): (r: seq<EditItem>)
    requires idx < |items|
    ensures |r| == |items|
    ensures forall j :: 0 <= j < |items| && j != idx ==> r[j] == items[j]
    ensures r[idx].images == items[idx].images
    ensures Get(r[idx].fields, FieldKey(field)) == Str(value)
    ensures forall k :: k != FieldKey(field) ==> Get(r[idx].fields, k) == Get(items[idx].fields, k)
  {
    var it := items[idx];
    items[idx := it.(fields := it.fields[FieldKey(field) := Str(value)])]
  }

  /** `{ image: f }`. */
  function Wrap(f: Value): (r: Object)
    ensures r.Keys == {"image"} && r["image"] == f
  {
    map["image" := f]
  }

  /** `handleImageChange(idx, files)`: the item's images become the chosen files, each wrapped. */
  function HandleImageChange(items: seq<EditItem>, idx: nat, files: seq<Value>): (r: seq<EditItem>)
    requires idx < |items|
    ensures |r| == |items|
    ensures forall j :: 0 <= j < |items| && j != idx ==> r[j] == items[j]
    ensures r[idx].fields == items[idx].fields
    ensures |r[idx].images| == |files|
    ensures forall j :: 0 <= j < |files| ==> r[idx].images[j] == Wrap(files[j])
  {
    var it := items[idx];
    items[idx := it.(images := seq(|files|, j requires 0 <= j < |files| => Wrap(files[j])))]
  }

  /** An item of the request body. */
  datatype PayloadItem = PayloadItem(orderName: Value, orderDetails: Value, quantity: Value, price: Value, images: seq<Object>)

  datatype Payload = Payload(status: Value, items: seq<PayloadItem>)

  /** `{ image: img.image }`: both branches of the `instanceof File` test build the same record. */
  function ImageRecord(img: Object): Object {
    Wrap(Get(img, "image"))
  }

  function ToPayloadItem(it: EditItem): (r: PayloadItem)
    ensures r.orderName == Get(it.fields, "order_name") && r.orderDetails == Get(it.fields, "order_details")
    ensures r.quantity == Get(it.fields, "quantity") && r.price == Get(it.fields, "price")
    ensures |r.images| == |it.images|
    ensures forall j :: 0 <= j < |it.images| ==> r.images[j].Keys == {"image"} && r.images[j]["image"] == Get(it.images[j], "image")
  {
    PayloadItem(
      Get(it.fields, "order_name"), Get(it.fields, "order_details"),
      Get(it.fields, "quantity"), Get(it.fields, "price"),
      seq(|it.images|, j requires 0 <= j < |it.images| => ImageRecord(it.images[j])))
  }

  /** The body of `PUT orders/<id>/`: the order's current status and the edited items in order. */
  function BuildPayload(order: Object, items: seq<EditItem>): (r: Payload)
    ensures r.status == Get(order, "status")
    ensures |r.items| == |items|
    ensures forall i :: 0 <= i < |items| ==> r.items[i] == ToPayloadItem(items[i])
  {
    Payload(Get(order, "status"), seq(|items|, i requires 0 <= i < |items| => ToPayloadItem(items[i])))
  }

  /** Files chosen for an item reach the body as exactly `{ image: f }` each, in order. */
  lemma ChosenFilesReachPayload(order: Object, items: seq<EditItem>, idx: nat, files: seq<Value>)
    requires idx < |items|
    ensures var p := BuildPayload(order, HandleImageChange(items, idx, files));
            && |p.items[idx].images| == |files|
            && (forall j :: 0 <= j < |files| ==> p.items[idx].images[j] == Wrap(files[j]))
  {
    var edited := HandleImageChange(items, idx, files);
    var p := BuildPayload(order, edited);
    forall j | 0 <= j < |files|
      ensures p.items[idx].images[j] == Wrap(files[j])
    {
      assert edited[idx].images[j] == Wrap(files[j]);
    }
  }

  /** Editing one field of one item changes only that value of the body. */
  lemma EditReachesPayload(order: Object, items: seq<EditItem>, idx: nat, field: Field, value: string)
    requires idx < |items|
    ensures var (before, after) := (BuildPayload(order, items), BuildPayload(order, HandleItemChange(items, idx, field, value)));
            && after.status == before.status
            && |after.items| == |before.items|
            && (forall j :: 0 <= j < |items| && j != idx ==> after.items[j] == before.items[j])
            && after.items[idx].images == before.items[idx].images
            && after.items[idx].price == before.items[idx].price
            && after.items[idx] == (match field
                                    case OrderName => before.items[idx].(orderName := Str(value))
                                    case OrderDetails => before.items[idx].(orderDetails := Str(value))
                                    case Quantity => before.items[idx].(quantity := Str(value)))
  {
  }

  /** The parent's callbacks. */
  datatype Callback = OrderUpdated | Closed

  /** `handleSubmit` given whether the `PUT` succeeded: the body sent and the callbacks run, in order. */
  function Submit(order: Object, items: seq<EditItem>, saved: bool): (r: (Payload, seq<Callback>))
    ensures r.0 == BuildPayload(order, items)
    ensures saved ==> r.1 == [OrderUpdated, Closed]
    ensures !saved ==> r.1 == []
  {
    (BuildPayload(order, items), if saved then [OrderUpdated, Closed] else [])
  }
}

=== FILE: user_serializers.dfy ===
/**
 * The user serializers of the backend: the public representation of a user,
 * registration with its defaults, login validation over an authentication
 * oracle, and the password-reset check that runs before the strength
 * validators.
 */
module UserSerializers {
  import opened Basics
  import opened Json

  datatype User = User(id: nat, username: string, email: Option<string>, phone: string, address: string,
                       isStaff: bool, isActive: bool, password: string)

  /** The fields `UserSerializer` exposes. */
  const UserFields: set<string> := {"id", "username", "email", "phone", "address", "is_staff"}

  /** `UserSerializer(user).data`. */
  function Represent(u: User): (r: Object)
    ensures r.Keys == UserFields
    ensures r["id"] == Num(u.id) && r["username"] == Str(u.username) && r["is_staff"] == Bool(u.isStaff)
    ensures "password" !in r
  {
    map["id" := Num(u.id),
        "username" := Str(u.username),
        "email" := (if u.email.Some? then Str(u.email.value) else Null),
        "phone" := Str(u.phone),
        "address" := Str(u.address),
        "is_staff" := Bool(u.isStaff)]
  }

  /** The validated registration data; `password` is accepted but never represented back. */
  datatype Registration = Registration(username: string, email: Option<string>, password: string,
                                       phone: Option<string>, address: Option<string>)

  /** `RegisterSerializer(user).data`: the declared fields, without the write-only password. */
  function RepresentRegistered(u: User): (r: Object)
    ensures r.Keys == {"username", "email", "phone", "address"}
    ensures "password" !in r
  {
    map["username" := Str(u.username),
        "email" := (if u.email.Some? then Str(u.email.value) else Null),
        "phone" := Str(u.phone),
        "address" := Str(u.address)]
  }

  /**
   * `RegisterSerializer.create`: absent phone and address become empty
   * strings. `password` here is the credential as given to `create_user`,
   * not the hashed value the user model stores.
   */
  function Create(id: nat, data: Registration): (u: User)
    ensures u.username == data.username && u.email == data.email && u.password == data.password
    ensures u.phone == (if data.phone.Some? then data.phone.value else "")
    ensures u.address == (if data.address.Some? then data.address.value else "")
    ensures !u.isStaff && u.isActive
  {
    User(id, data.username, data.email, data.phone.GetOr(""), data.address.GetOr(""), false, true, data.password)
  }

  const InvalidCredentials: string := "Invalid credentials"

  /** `LoginSerializer.validate`: the user when authentication succeeds and the account is active. */
  function ValidateLogin(username: string, password: string, authenticate: (string, string) -> Option<User>)
    : (r: Result<User, string>)
    ensures r.Ok? <==> authenticate(username, password).Some? && authenticate(username, password).value.isActive
    ensures r.Ok? ==> r.value == authenticate(username, password).value
    ensures r.Err? ==> r.error == InvalidCredentials
  {
    match authenticate(username, password)
    case Some(u) => if u.isActive then Ok(u) else Err(InvalidCredentials)
    case None => Err(InvalidCredentials)
  }

  /** Why a password reset is refused. */
  datatype ResetError = Mismatch | Weak(reasons: seq<string>)

  /**
   * `ResetPasswordSerializer.validate`: a mismatch is refused first; only a
   * matching pair goes to the strength validators (`None` means accepted).
   */
  function ValidateReset(newPassword: string, confirm: string, validators: string -> Option<seq<string>>)
    : (r: Result<(string, string), ResetError>)
    ensures newPassword != confirm ==> r == Err(Mismatch)
    ensures newPassword == confirm ==>
              (r.Ok? <==> validators(newPassword).None?)
              && (r.Ok? ==> r.value == (newPassword, confirm))
              && (r.Err? ==> r.error == Weak(validators(newPassword).value))
  {
    if newPassword != confirm then Err(Mismatch)
    else match validators(newPassword)
      case Some(reasons) => Err(Weak(reasons))
      case None => Ok((newPassword, confirm))
  }

  /** A mismatch is refused whatever the strength validators would say: they never run. */
  lemma MismatchBeforeStrength(a: string, b: string, v1: string -> Option<seq<string>>, v2: string -> Option<seq<string>>)
    requires a != b
    ensures ValidateReset(a, b, v1) == ValidateReset(a, b, v2) == Err(Mismatch)
  {
  }
}

=== FILE: video_player.dfy ===
/**
 * The looping video player: two stacked videos, one visible, the other
 * preloaded with the next source. Each call of `handleEnded` swaps which one
 * is shown and advances both indices by one, modulo the number of sources.
 * Only the first video element has the `onEnded` handler attached.
 */
module VideoPlayer {

  datatype Player = Player(current: nat, next: nat, showFirst: bool)

  /** Both indices lie among the `n` sources and `next` follows `current`. */
  predicate Valid(p: Player, n: nat) {
    n > 0 && p.current < n && p.next == (p.current + 1) % n
  }

  /** The state on mount: first source shown, second preloaded. */
  function Init(n: nat): (p: Player)
    requires n > 0
    ensures Valid(p, n) && p.current == 0 && p.showFirst
  {
    Player(0, 1 % n, true)
  }

  /** `handleEnded`: flip the visible video, current takes the old next, next advances. */
  function HandleEnded(p: Player, n: nat): (r: Player)
    requires n > 0
    ensures r.current == p.next && r.next == (p.next + 1) % n && r.showFirst == !p.showFirst
    ensures Valid(p, n) ==> Valid(r, n) && r.current == (p.current + 1) % n
  {
    Player(p.next, (p.next + 1) % n, !p.showFirst)
  }

  /** The state after `k` endings. */
  function Play(p: Player, n: nat, k: nat): Player
    requires n > 0
  {
    if k == 0 then p else HandleEnded(Play(p, n, k - 1), n)
  }

  /** For an index among the sources, the JavaScript `(i + 1) % n` wraps only at the last source. */
  lemma StepMod(i: nat, n: nat)
    requires i < n
    ensures (i + 1) % n == if i + 1 == n then 0 else i + 1
  {
  }

  /** One ending from a valid state: valid again, and the current index moves on by one, wrapping at `n`. */
  lemma EndedAdvances(q: Player, n: nat)
    requires Valid(q, n)
    ensures Valid(HandleEnded(q, n), n)
    ensures HandleEnded(q, n).current == if q.current + 1 < n then q.current + 1 else 0
    ensures HandleEnded(q, n).showFirst == !q.showFirst
  {
    StepMod(q.current, n);
  }

  /**
   * Within one lap (`k <= n` endings) the current index has advanced by `k`,
   * wrapping once past the last source.
   */
  lemma {:induction false} PlayAdvances(p: Player, n: nat, k: nat)
    requires Valid(p, n) && k <= n
    ensures Valid(Play(p, n, k), n)
    ensures Play(p, n, k).current == if p.current + k < n then p.current + k else p.current + k - n
  {
    if k > 0 {
      PlayAdvances(p, n, k - 1);
      var q := Play(p, n, k - 1);
      assert Play(p, n, k) == HandleEnded(q, n);
      EndedAdvances(q, n);
    }
  }

  /** Each ending flips the visible video, so after `k` endings it has flipped `k` times. */
  lemma {:induction false} PlayFlips(p: Player, n: nat, k: nat)
    requires n > 0
    ensures Play(p, n, k).showFirst == (p.showFirst == (k % 2 == 0))
  {
    if k > 0 {
      PlayFlips(p, n, k - 1);
      assert Play(p, n, k).showFirst == !Play(p, n, k - 1).showFirst;
      ParityStep(k);
    }
  }

  /** Parity alternates. */
  lemma ParityStep(k: nat)
    requires k > 0
    ensures (k % 2 == 0) == !((k - 1) % 2 == 0)
  {
  }

  /** After `n` endings the rotation is back where it started: the first source again, from the initial state. */
  lemma FullCycle(p: Player, n: nat)
    requires Valid(p, n)
    ensures Play(p, n, n).current == p.current
    ensures Play(p, n, n).next == p.next
    ensures Play(Init(n), n, n).current == 0
  {
    PlayAdvances(p, n, n);
    PlayAdvances(Init(n), n, n);
  }
}
